=== FILE: README.md ===
# Blog backend request decisions in Dafny

This project models the decision logic of a CRUD blog backend (Express handlers over a
Mongoose document store) as pure Dafny functions. Each handler becomes a function from the
request and a snapshot of the store to a tagged reply and the new snapshot. Stores are
sequences of immutable records. A store call that throws is a parameter: a `lookupFails`,
`saveFails` or `storeFails` flag, or an `Outage` that numbers the handler's store calls from 0
and makes one of them throw, keeping the effects of the earlier calls. Inside a `try` the
throw becomes the handler's error reply, which the model reads as "the client gets that status":
most `catch` blocks call `next(error)` before sending their 500, so with no error middleware
registered the 500 the client sees may be Express's own page rather than the handler's body. The `findOne` lookups of registration and login and
the `findById` lookups of the `isLocked` and `isAdmin` gates sit outside any `try`: there the
handler's promise rejects, and the model's outcome is that no response is sent and the next
gate never runs. Other lookups, such as the `findById` of `likeComment`, sit inside the `try`
and answer 500 like a failed write, with the same proviso.

The modules follow the program's structure:

- `Wrappers`, `Collections`, `JsText`, `Validation`: option and step types, sequence helpers
  (`Filter`, `indexOf`, `splice`, unique indexes), the JavaScript string semantics the
  handlers rely on (truthiness, UTF-16 `.length`, regex character classes, `split`/`join`),
  and the ordered "first failing check wins" validator.
- `Http`, `External`: `IRequestStatus`, the store-failure model, and the uninterpreted
  collaborators (email regular expression, bcrypt hash and compare). The only fact assumed of
  bcrypt is that a password matches its own hash.
- `UserModel`, `PostModel`: the two collections with their enums, schema defaults, required
  fields and unique indexes (user `_id` and `email`; post `_id`, `title` and `slug`).
- `Tokens`, `Gates`: JWT signing and verification with a clock, and the `verifyToken` →
  `isLocked` → `isAdmin` gate chain that stops at the first gate that does not call `next()`.
- `Auth`: `registerNewUser` and `userLogin`.
- `UsersController`: `updateUserInfo`, the `getAllUsers` query builder, and the two user deletes.
- `Slug`: `getSlug`, modelled per character.
- `Comments`, `Favorites`: the comment handlers with the like toggle, and the favorites relation.
- `PostController`: `createNewPost` of the TypeScript controller.
- `LegacyPostController`: the older compiled post controller (`createNewPost` with its
  duplicate-title lookup, `getAllPosts`, the owner and admin update and delete routes).

Where the written description of the system and the code disagree, the model follows the
code. In particular, login never consults the account status, so a locked user can still
log in (`Auth.LoginIgnoresStatus`). Only the `isLocked` gate in front of the signed-in
routes looks at the status.

Assumptions about the libraries, stated rather than proved:

- A Mongoose `$set` whose value is `undefined` leaves the field unchanged.
- Updates (`findByIdAndUpdate`) run no `required` or `enum` validators, while unique indexes
  still reject a clashing update.
- `findById(undefined)` finds nothing.
- Tokens signed with different secrets never cross-verify. A token is expired once the clock
  reaches its `exp` claim (section 4.1.4 of RFC 7519).

## Model

| member | source | states |
|---|---|---|
| `Validation.FirstFailureSpec` | api/controllers/auth/auth.controller.ts:16-88 | an ordered validator reports nothing exactly when every check passes; otherwise it reports a failing check all of whose predecessors pass |
| `Auth.RegisterValidation` | api/controllers/auth/auth.controller.ts:16-88 | registration's if-chain is the ordered validator over email present, password present, displayName present, email format, password length, displayName length, displayName charset, email unused |
| `Auth.RegisterFieldChecks` | api/controllers/auth/auth.controller.ts:40-88 | once the three fields are present, the format, length, charset and duplicate checks run in that order and the first failure is reported |
| `Auth.Register` | api/controllers/auth/auth.controller.ts:13-107 | no response exactly when the field checks pass and the duplicate-email lookup throws; otherwise a rejection names the first failing check and leaves the store alone; success holds exactly when all checks pass, lookup and save succeed and the hash and id are usable, and then exactly one new user is appended; the user invariant is preserved |
| `Auth.RegisterLookupReached` | api/controllers/auth/auth.controller.ts:16-80 | registration reaches its `findOne` exactly when no check fails or the first failing one is the duplicate-email check |
| `Auth.RegisterWire` | api/controllers/auth/auth.controller.ts:16-106 | nothing is sent exactly when the lookup throws; 201 with Success only for a registration; every other outcome is HTTP 200 with `requestStatus` Error, and a rejection carries the field of its check |
| `Auth.PasswordBoundary` | api/controllers/auth/auth.controller.ts:52-59 | after a present, valid email and a present display name, any password of 1 to 5 UTF-16 units is refused on the "password" field with HTTP 200 and no store change, whatever the store would do; one of 6 or more passes the length check |
| `Auth.DisplayNameRule` | api/controllers/auth/auth.controller.ts:63-77 | a display name passes both checks exactly when it has 4 to 14 characters, all ASCII letters or digits |
| `Auth.DuplicateEmailRejected` | api/controllers/auth/auth.controller.ts:80-88 | with every earlier check passing, an email already stored is refused on the "email" field and the store is unchanged |
| `Auth.RegisterStoresHash` | api/controllers/auth/auth.controller.ts:60-100 | a registration adds exactly one user after the old ones, with the given email and display name and the hash as password, answered with 201 |
| `Auth.Login` | api/controllers/auth/auth.controller.ts:109-186 | no response exactly when the lookup is reached and throws, or every check passes and the secret is unset; otherwise a rejection names the first failing login check; a login happens exactly when all checks pass, the lookup answers and the secret is set, and returns the stored user without password and a one-day cookie token for its id; the store is never written |
| `Auth.LoginLookupReached` | api/controllers/auth/auth.controller.ts:112-150 | login reaches its `findOne` exactly when no check fails or the first failing one reads the store (unknown email, wrong password) |
| `Auth.LoginValidation` | api/controllers/auth/auth.controller.ts:112-166 | login's if-chain is the ordered validator over email present, password present, email format, password length, user exists, password matches |
| `Auth.LoginWire` | api/controllers/auth/auth.controller.ts:112-185 | every login answer is HTTP 200; only a login has `requestStatus` Success; a rejection carries the field of its check; a throwing lookup or an unset secret sends nothing |
| `Auth.RegisterThenLogin` | api/controllers/auth/auth.controller.ts:150-179 | logging in with the form that just registered succeeds, with a token for the new id and the new user's public record |
| `Auth.RegisteredFormPassesLogin` | api/controllers/auth/auth.controller.ts:128-166 | a form that passed registration passes every login check against the store holding its new user, and the lookup by email finds that user |
| `Auth.WrongPasswordNoToken` | api/controllers/auth/auth.controller.ts:159-166 | a stored email with a non-matching password is refused on the password check and gets no token |
| `Auth.LoginIgnoresStatus` | api/controllers/auth/auth.controller.ts:150-179 | changing any user's status changes no login decision, check or token, only the status in the returned profile |
| `JsText.Utf16Length` | api/controllers/auth/auth.controller.ts:53 | JavaScript `.length` lies between the character count and twice it, and equals the character count exactly when no character lies outside the Basic Multilingual Plane |
| `JsText.SplitThenJoin` | api/utils/utils.ts:3-4 | joining the pieces of a split with the same separator gives back the original text |
| `UserModel.ParseRole` | api/models/users/user.model.ts:68-73 | the role validator accepts exactly the names of the two roles and inverts `RoleName` |
| `UserModel.ParseGender` | api/models/users/user.model.ts:52-56 | the gender validator accepts exactly "male" and "female" and inverts `GenderName` |
| `UserModel.ParseStatus` | api/models/users/user.model.ts:57-62 | status has exactly two values, and the locked one is the string "locked" |
| `UserModel.PublicForgetsOnlyPassword` | api/models/users/user.model.ts:18 | two users have the same public projection exactly when they differ at most in their password |
| `UserModel.NewUser` | api/models/users/user.model.ts:33-76 | a new user keeps the given id, name, email and hash, and takes role "user", status "active", the default avatar and no phone or gender |
| `UserModel.FindByEmail` | api/controllers/auth/auth.controller.ts:80 | the lookup finds a user exactly when one with that email is stored, and what it finds is stored with that email |
| `UserModel.FindById` | api/middlewares/verifyUser.ts:76 | the lookup finds a user exactly when one with that id is stored, and what it finds is stored with that id |
| `UserModel.FindByEmailUnique` | api/models/users/user.model.ts:39-43 | with unique emails, looking up a stored user's email finds that very user |
| `UserModel.SaveUser` | api/models/users/user.model.ts:33-76 | a save succeeds exactly when the required fields are non-empty and neither id nor email is taken, appends the user, and keeps the collection well formed |
| `UserModel.Without` | api/controllers/users/users.controller.ts:207 | a delete by a set of ids keeps exactly the users whose id is outside the set |
| `UserModel.WithoutWellFormed` | api/models/users/user.model.ts:39-43 | deleting users keeps ids and emails unique and required fields present |
| `UserModel.FindByIdIgnoresStatus` | api/middlewares/authMiddleware.ts:7-8 | a lookup by id finds the same user, up to its status, after any status change |
| `Tokens.Sign` | api/middlewares/verifyUser.ts:16 | signing fails exactly when the secret is unset, and otherwise records the claims, the secret, the issue time and the expiry |
| `Tokens.SignAccessToken` | api/middlewares/verifyUser.ts:10-18 | access tokens carry the id and name, use the access secret and live 600 seconds |
| `Tokens.SignRefreshToken` | api/middlewares/verifyUser.ts:20-28 | refresh tokens carry the same claims, use the refresh secret and live 86400 seconds |
| `Tokens.SignThenVerify` | api/middlewares/verifyUser.ts:55 | a freshly signed token verifies with its own secret as valid before its expiry and as expired from then on |
| `Tokens.AccessTokenLifetime` | api/middlewares/verifyUser.ts:10-18 | an access token is valid for exactly its first ten minutes |
| `Tokens.RefreshTokenIsNotAccessToken` | api/middlewares/verifyUser.ts:20-28 | when the two secrets differ, a refresh token never verifies as an access token |
| `Gates.VerifyToken` | api/middlewares/verifyUser.ts:30-73 | no header: neither next nor a response; a valid token continues with its claims as the request user; an expired one stops with code 401; any other failure stops with code 500 |
| `Gates.IsLocked` | api/middlewares/verifyUser.ts:75-85 | a throwing lookup neither answers nor calls next; otherwise the gate stops exactly when the user exists with status "locked", and a missing user passes |
| `Gates.IsAdmin` | api/middlewares/authMiddleware.ts:6-15 | a throwing lookup neither answers nor calls next; otherwise the gate continues exactly when the user exists with role "admin", and else answers HTTP 401 |
| `Gates.IsAdminIgnoresStatus` | api/middlewares/authMiddleware.ts:7-14 | changing any user's status never changes the admin decision |
| `Gates.PipelineAppend` | api/router/users/user.route.ts:8 | running two gate lists in a row equals running the second only when the first lets the request through |
| `Gates.SignedInRouteReached` | api/router/comment/comment.route.ts:7 | a signed-in route reaches its handler exactly when the token is valid, the lookup answers and its user is not locked, with the token's claims as request user; it gets no response exactly when the header is missing or the lookup throws behind a valid token |
| `Gates.AdminRouteReached` | api/router/users/user.route.ts:8 | an admin route reaches its handler exactly when the token is valid, the lookups answer and the token names an existing active admin |
| `Gates.NoHeaderStalls` | api/middlewares/verifyUser.ts:53-58 | a chain starting with the token gate stalls on a request without a token header |
| `UsersController.UpdateValidation` | api/controllers/users/users.controller.ts:105-148 | the update's if-chain is the ordered validator over email format, password length, display name length, display name charset and phone format, each run only for a truthy field |
| `UsersController.ApplyUpdate` | api/controllers/users/users.controller.ts:150-162 | a given field is written, an absent one keeps its value, a truthy password is stored hashed, and id, role, status, avatar and gender never change |
| `UsersController.UpdateUserInfo` | api/controllers/users/users.controller.ts:97-182 | 403 exactly when the caller is not the path user; 400 exactly when a check fails, naming the first; after the checks, 500 exactly when the store call throws or the updated email clashes with another user's, 400 not-found exactly when no user has the id, and 200 exactly in the remaining case; only the 200 changes the store, replacing the addressed user alone, and returns it without password |
| `UsersController.UpdateKeepsIndexes` | api/controllers/users/users.controller.ts:151-162 | an update never breaks the uniqueness of ids or emails |
| `UsersController.UpdateCanClearDisplayName` | api/controllers/users/users.controller.ts:151-162 | an empty display name passes the truthiness-gated checks and is written, leaving a user without its required display name |
| `UsersController.UpdateStoresHash` | api/controllers/users/users.controller.ts:116-124 | a supplied password is stored as its hash, which the password matches |
| `UsersController.UpdateDisplayNameRule` | api/controllers/users/users.controller.ts:126-139 | a truthy display name passes exactly when it has 4 to 14 ASCII letters or digits |
| `UsersController.DirectionOf` | api/controllers/users/users.controller.ts:20 | a direction token is ascending exactly when it is "asc"; anything else, a missing token included, is descending |
| `UsersController.ReadPairs` | api/controllers/users/users.controller.ts:17-27 | the pair loop builds one entry per distinct token at an even position, in the order of the key's first occurrence, holding the token after its last occurrence (undefined past the end) |
| `UsersController.TwoKeysInOrder` | api/controllers/users/users.controller.ts:17-21 | "a x b y" with distinct keys reads as the entries for a and then b, so the order of the pairs in the query string is the sort precedence |
| `UsersController.ReadInOrderAsMap` | api/controllers/users/users.controller.ts:23-27 | forgetting the key order, the object is the map from each key to the value after its last occurrence |
| `UsersController.OrDefault` | api/controllers/users/users.controller.ts:14-15 | a parse of 0 or NaN falls back to the default; any other number is kept |
| `UsersController.SearchOverridesName` | api/controllers/users/users.controller.ts:29-32 | a truthy search text replaces any displayName entry by a case-insensitive regex and leaves the other pairs as read |
| `UsersController.GetAllUsers` | api/controllers/users/users.controller.ts:12-53 | a missing sort or filter string is the 500 reply; otherwise skip is (page - 1) * limit with defaults 1 and 9, the sort object reads the "%20" pairs as directions with its keys in first-occurrence order, and the filter reads them as equalities with the search override |
| `UsersController.DeleteSingleUser` | api/controllers/users/users.controller.ts:184-202 | the user goes once call 0 completes and every post they authored once call 1 completes; the reply lists the remaining users without passwords, or is 500 when any call throws |
| `UsersController.DeleteSingleUserCascade` | api/controllers/users/users.controller.ts:187-188 | after a successful single delete neither the user nor any of their posts remains, and both collections stay well formed |
| `UsersController.DeleteMultipleUsers` | api/controllers/users/users.controller.ts:204-221 | exactly the listed users go once call 0 completes, posts are never touched, and the reply lists the remaining users or is 500 |
| `UsersController.SingleAndMultipleDeleteAgreeOnUsers` | api/controllers/users/users.controller.ts:184-221 | deleting one user either way leaves the same users and reply; only the single delete removes posts |
| `Slug.SplitJoinSpaces` | api/utils/utils.ts:3-4 | splitting on spaces and joining with dashes turns each space into a dash and keeps every other character |
| `Slug.SlugIsPerCharacter` | api/utils/utils.ts:1-7 | the slug is the concatenation of what each input character contributes |
| `Slug.SpaceBecomesDash` | api/utils/utils.ts:3-4 | a space becomes a dash at its place, whatever surrounds it |
| `Slug.SlugCharset` | api/utils/utils.ts:5-6 | every character of a slug is a small ASCII letter, a digit or a dash |
| `Slug.SlugAscii` | api/utils/utils.ts:5-6 | on ASCII, capitals become their small letters, small letters, digits and dashes are kept, everything else becomes a dash |
| `Slug.SlugOfAscii` | api/utils/utils.ts:3-6 | on ASCII input the slug has the input's length and position i depends only on input position i |
| `Slug.SlugIdempotent` | api/utils/utils.ts:1-7 | a slug is its own slug |
| `Slug.SlugNotInjective` | api/utils/utils.ts:3-6 | "A B", "a-b" and "a_b" all give "a-b" |
| `Slug.SlugNonEmpty` | api/utils/utils.ts:1-7 | a non-empty title has a non-empty slug |
| `Collections.IndexOf` | api/controllers/comment/comment.controller.ts:118 | `indexOf` is -1 exactly when the value is absent, and otherwise points at its first occurrence |
| `Collections.RemoveAt` | api/controllers/comment/comment.controller.ts:123 | `splice(i, 1)` removes the one entry at i and keeps the entries before and after it in order |
| `Collections.RemoveFirst` | api/controllers/favorite/favorite.controller.ts:30 | removing the first match takes exactly one occurrence away, and is a no-op when nothing matches |
| `Comments.CreateComment` | api/controllers/comment/comment.controller.ts:5-36 | 403 exactly when the body commentator is not the caller; otherwise a comment with non-empty content is appended with no likes, and anything else leaves the store alone |
| `Comments.UpdateComment` | api/controllers/comment/comment.controller.ts:58-81 | 403 exactly when the body commentator is not the caller; otherwise the content of the addressed comment is set, or the store is left alone on failure |
| `Comments.UpdateChangesOnlyContent` | api/controllers/comment/comment.controller.ts:69 | an update changes nothing but the content of the addressed comment |
| `Comments.DeleteComment` | api/controllers/comment/comment.controller.ts:83-106 | 403 exactly when the body commentator is not the caller; a delete keeps exactly the comments with another id |
| `Comments.AnyoneCanEditAnyComment` | api/controllers/comment/comment.controller.ts:61-94 | a caller who names themself as commentator rewrites or deletes a comment written by someone else |
| `Comments.UpdateOwnComment` | api/controllers/comment/comment.controller.ts:58-81 | with the guard on the stored comment, 403 exactly when the caller did not write it |
| `Comments.DeleteOwnComment` | api/controllers/comment/comment.controller.ts:83-106 | with the guard on the stored comment, 403 exactly when the caller did not write it |
| `Comments.OnlyOwnerChangesComment` | api/controllers/comment/comment.controller.ts:58-106 | with the guard on the stored comment, a comment written by someone else survives every update and delete |
| `Comments.Toggle` | api/controllers/comment/comment.controller.ts:118-124 | an absent caller is appended at the end; a present caller loses only their first occurrence |
| `Comments.ToggleLength` | api/controllers/comment/comment.controller.ts:118-130 | the new like count differs from the old one by exactly one |
| `Comments.ToggleRemovesFirst` | api/controllers/comment/comment.controller.ts:122-124 | only the first occurrence is removed and the other entries keep their order |
| `Comments.ToggleFlips` | api/controllers/comment/comment.controller.ts:118-124 | when the caller likes at most once, the toggle flips their membership |
| `Comments.ToggleTwice` | api/controllers/comment/comment.controller.ts:118-124 | when the caller likes at most once, toggling twice restores the multiset of likes, and the list itself when the caller was absent (`Comments.ToggleDistinct` keeps a duplicate-free list in that case) |
| `Comments.ToggleDistinct` | api/controllers/comment/comment.controller.ts:118-124 | a duplicate-free like list stays duplicate-free |
| `Comments.FindComment` | api/controllers/comment/comment.controller.ts:110 | the lookup finds a comment exactly when an id is given and stored, and what it finds carries that id |
| `Comments.LikeComment` | api/controllers/comment/comment.controller.ts:108-139 | 500 exactly when the lookup throws, or a comment is found and its save throws or its `required` content is empty; 404 exactly when the lookup completes and no comment has the id; on success the found comment's likes are toggled and totalLike is the new length; failures change nothing |
| `Comments.LikeAsRoutedNotFound` | api/controllers/comment/comment.controller.ts:110-116 | as routed, every like request whose lookup completes answers 404, and every like request changes nothing |
| `Comments.LikeCommentByRoute` | api/router/comment/comment.route.ts:9 | reading the bound parameter, 500 exactly when the lookup throws, or a comment is found and its save throws or its content is empty; 404 exactly when the lookup completes and no comment has the id; otherwise that comment's likes are toggled and counted |
| `Comments.LikeByRouteToggles` | api/controllers/comment/comment.controller.ts:108-131 | read from the bound parameter, a like on a stored comment with content flips the caller's like, reports the new count and changes no other comment; on an emptied comment it answers 500 and changes nothing |
| `Comments.EmptiedCommentRefusesLikes` | api/models/comment/comment.model.ts:12-15 | after an update stores an empty content, which updates do not validate, every like of that comment answers 500 because `save()` runs the `required` validator |
| `Favorites.FavoriteStatus` | api/controllers/favorite/favorite.controller.ts:36-41 | the answer is 500 exactly for the network error |
| `Favorites.AddOrRemove` | api/controllers/favorite/favorite.controller.ts:7-42 | 403 and no change unless the caller is the body user; 500 and no change on a store failure; otherwise `Added` exactly for a truthy `isAddFavorite`, appending the pair, and `Removed` exactly for a falsy one, taking its first match away |
| `Favorites.AddRemoveCounts` | api/controllers/favorite/favorite.controller.ts:18-35 | an add raises the pair's count by one even when present; a remove lowers it by at most one, touches no other record, and is a no-op when the pair is absent |
| `Favorites.AddThenRemove` | api/controllers/favorite/favorite.controller.ts:18-35 | adding and then removing a pair restores the multiset of records |
| `Favorites.FavoritePosts` | api/controllers/favorite/favorite.controller.ts:54-58 | the query returns exactly the stored posts whose id is in one of the user's records |
| `Favorites.GetFavoritePosts` | api/controllers/favorite/favorite.controller.ts:44-73 | 403 exactly unless the path user is the caller; 500 exactly on a store failure; a favorites list exactly otherwise, holding exactly the user's favorite posts, each marked as favorite |
| `Favorites.FavoritePostsOnce` | api/controllers/favorite/favorite.controller.ts:54-65 | each favorite post appears once, even when favorited twice |
| `PostModel.ParsePostState` | api/models/post/post.model.ts:47-52 | the status validator accepts exactly the three state names and inverts `PostStateName` |
| `PostModel.SavePost` | api/models/post/post.model.ts:19-55 | a save succeeds exactly when the post is valid and its id, title and slug are all new, and then appends it |
| `PostModel.SavePostWellFormed` | api/models/post/post.model.ts:21-30 | a successful save keeps ids, titles and slugs unique |
| `PostModel.FindPost` | dist/controllers/post/post.Controller.js:189 | the lookup finds a post exactly when one with that id is stored |
| `PostModel.RemovePosts` | api/controllers/users/users.controller.ts:188 | a delete keeps exactly the posts the condition does not match |
| `PostModel.RemovePostsWellFormed` | api/models/post/post.model.ts:21-30 | deleting posts keeps ids, titles and slugs unique |
| `PostModel.ReplacePost` | dist/controllers/post/post.Controller.js:180-188 | an update is rejected exactly when another post holds the new title or slug, and otherwise replaces the addressed post only |
| `PostModel.ReplacePostWellFormed` | api/models/post/post.model.ts:21-30 | replacing a post by one with the same id keeps ids, titles and slugs unique |
| `PostController.NewPost` | api/controllers/post/post.Controller.ts:13-22 | the new post takes its title, content and category from the body, its slug from the title, its author from the caller, and the schema defaults for thumbnail and status |
| `PostController.CreatePost` | api/controllers/post/post.Controller.ts:5-38 | 400 exactly when a required field is falsy; 201 exactly when the save succeeds, with the new post appended, valid and authored by the caller; otherwise 500 and no change; post indexes stay unique |
| `PostController.BodySlugAndAuthorIgnored` | api/controllers/post/post.Controller.ts:18-22 | whatever slug and author the body carries, the outcome is the same |
| `PostController.CreatedDefaults` | api/models/post/post.model.ts:35-52 | a post created without status or thumbnail is Pending with the default thumbnail |
| `PostController.ClientChosenStatusKept` | api/controllers/post/post.Controller.ts:18-28 | a body status "Published" is kept, skipping the approval step |
| `PostController.DuplicateTitleFails` | api/controllers/post/post.Controller.ts:24-37 | a title or slug already stored fails the save with 500 and nothing is stored |
| `LegacyPostController.CreatePostLegacy` | dist/controllers/post/post.Controller.js:19-54 | 400 for missing fields or a stored title, no reply when the lookup throws, 201 exactly when lookup, save and re-read complete; the store changes only by appending the new post |
| `LegacyPostController.LegacyDuplicateTitle` | dist/controllers/post/post.Controller.js:27-33 | a stored title is refused with 400 and nothing is saved |
| `LegacyPostController.LegacyAgreesOnNewTitles` | dist/controllers/post/post.Controller.js:19-54 | for a new title and no failures, both versions create the same post |
| `LegacyPostController.PostListQuery` | dist/controllers/post/post.Controller.js:56-83 | skip is (page - 1) * limit with defaults 1 and 9; the sort map has the one key sortField (default "createdAt"); a filter entry needs both field and value; a search text adds a case-insensitive title regex |
| `LegacyPostController.PostListDefaults` | dist/controllers/post/post.Controller.js:59-66 | an empty request asks for the first nine posts, newest first, unfiltered |
| `LegacyPostController.PostPagesTile` | dist/controllers/post/post.Controller.js:59-60 | for any request, page n + 1 starts where page n ends with the same filter, sort and limit; page 1 starts at 0, and a missing page is page 1 |
| `LegacyPostController.SearchOverridesTitleFilter` | dist/controllers/post/post.Controller.js:69-76 | for any request, a search text replaces a `title` filter, giving the query built without that filter |
| `LegacyPostController.UserDeletePost` | dist/controllers/post/post.Controller.js:105-133 | 403 exactly when the caller is not the path user; 500 exactly when the path user calls and a store call throws; otherwise the post with the id goes, whoever wrote it, and the reply lists the caller's remaining posts |
| `LegacyPostController.AnyoneCanDeleteAnyPost` | dist/controllers/post/post.Controller.js:107-114 | a caller who names themself in the path deletes a post someone else wrote |
| `LegacyPostController.UserDeleteOwnPost` | dist/controllers/post/post.Controller.js:105-133 | with the guard on the stored post, 403 exactly when the caller did not write it, and only the caller's own post can go |
| `LegacyPostController.OthersPostsSurvive` | dist/controllers/post/post.Controller.js:107-114 | with the guard on the stored post, another user's post survives every delete request |
| `LegacyPostController.NotOwnerOfOthers` | dist/controllers/post/post.Controller.js:107-114 | with unique post ids, a caller who did not write a stored post does not own its id |
| `LegacyPostController.ApplyEdit` | dist/controllers/post/post.Controller.js:180-188 | an edit sets the title and recomputes the slug from it, keeps absent fields, and never changes id, author or status |
| `LegacyPostController.UserUpdatePost` | dist/controllers/post/post.Controller.js:171-205 | 403 exactly when the caller is not the path user; success exactly when a title is given, the post exists, no other post holds the new title or slug, and both calls complete; 500 in every other case where the path user calls; the post indexes stay unique |
| `LegacyPostController.AnyoneCanEditAnyPost` | dist/controllers/post/post.Controller.js:173-180 | a caller who names themself in the path rewrites a post someone else wrote |
| `LegacyPostController.UserUpdateOwnPost` | dist/controllers/post/post.Controller.js:171-205 | with the guard on the stored post, 403 exactly when the caller did not write it; only the caller's own post can change, and an updated post keeps the caller as author |
| `LegacyPostController.OthersPostsUnedited` | dist/controllers/post/post.Controller.js:173-180 | with the guard on the stored post, another user's post survives every update request unchanged |
| `LegacyPostController.AdminUpdateStatusPost` | dist/controllers/post/post.Controller.js:207-230 | 400 exactly for a falsy status; otherwise the status of the post with the id is set (200 even when none has it) or 500 with no change |
| `LegacyPostController.AdminStatusUnchecked` | dist/controllers/post/post.Controller.js:216-217 | the update writes a status outside the enum, leaving an invalid post |
| `LegacyPostController.AdminSingleDeletePost` | dist/controllers/post/post.Controller.js:135-151 | 200 exactly when the store does not fail, and then the post with the id is gone (existing or not); indexes stay unique |
| `LegacyPostController.AdminMultipleDeletePosts` | dist/controllers/post/post.Controller.js:153-169 | 200 exactly when the store does not fail, and then exactly the listed posts are gone |
| `LegacyPostController.SingleAndMultipleDeleteAgree` | dist/controllers/post/post.Controller.js:135-169 | deleting one post by id and deleting the one-element list of it leave the same posts |

## Left out

- Query execution is left out: Mongoose `find`/`skip`/`limit`/`sort`/`populate`/`select`/`lean`. `UsersController.GetAllUsers` and `LegacyPostController.PostListQuery` stop at the query object they build, and a negative skip is not interpreted.
- Express, cookies and response bodies are left out. Replies are datatypes carrying the status and the fields the decisions determine; message texts are not modelled.
- bcrypt (`hashSync` with cost 13, `compareSync`) and the email regular expression are uninterpreted functions. The only fact assumed is that a password matches its own hash.
- JWT signatures are not computed: a token records its secret, and verification compares secrets.
- `parseInt` itself is left out. `UsersController.OrDefault` takes its result, a number or NaN.
- The OTP, refresh-token, Google sign-in, logout and reset-password flows are left out: their handlers are not part of this model. So are `updatePassword`, `adminUpdateUserStatus`, `getTotalUsers`, `getUserById`, `userLogout`, `getAllCommentsByPostId` and the post handlers that exist only as router imports.
- The comment schema requires `postId` and `userId` while the controller writes `post` and `commentator`. The store would reject every created comment; this database-level mismatch is not modelled. `Comments.CreateComment` stores what the controller writes.
- The double response of a `catch` block that calls `next(error)` and then sends its own 500 is left out: Express's final handler may send its 500 page first, after which the handler's `send` throws `ERR_HTTP_HEADERS_SENT` outside any `try`, or may write after the handler's reply and throw from a stream event. Neither the second response nor the escaped exception is modelled; each such reply is the 500 the client gets.
- Concurrency is left out. The model runs one request at a time, so the check-then-create race on a duplicate email does not arise.
- Auth.Login: the `catch` around `jwt.sign` is left out, since signing with a set secret does not throw.
- Comments.LikeComment: the caller is a present user id, because the gates in front of the route always set `req.user`; `indexOf(undefined)` is not modelled.
- Favorites.AddOrRemove: the body's `postId` and `userId` are strings. A missing or mismatched `userId` is the 403 branch. A missing `postId`, or one that is not a valid ObjectId (which makes `save` throw), is only covered by `storeFails`.
- Favorites.GetFavoritePosts: the `populate` of each post's author is left out; the posts are returned as stored.
- UsersController.DeleteMultipleUsers: a missing `userIds` array (which makes the handler throw before replying) is not modelled; the ids arrive as a sequence.
- LegacyPostController.AdminMultipleDeletePosts: a missing `postIds` array is not modelled, for the same reason.
- LegacyPostController.CreatePostLegacy: the re-read that populates the author returns the saved post itself.
- Array-valued query or body fields, non-string body values and `__proto__` keys in the sort and filter objects are not modelled. Body fields are optional strings, except `isAddFavorite` of the favorites handler, which is a boolean standing for the truthiness of the body field: a string "false" adds a favorite and a missing field removes one.
- UsersController.GetAllUsers: a JavaScript object lists keys that are array indices ("0", "1", …) first, in numeric order, before the other keys; the sort object keeps plain first-assignment order for every key, which is the order for the field names a sort uses.

## Findings

| source | as written | input that shows it | evidently intended | confidence | as-written member | corrected member |
|---|---|---|---|---|---|---|
| api/controllers/comment/comment.controller.ts:110 | `likeComment` looks up `req.params.id`, but the route binds `:commentId` (api/router/comment/comment.route.ts:9) | `PUT /like-comment/c1` with comment `c1` stored: the lookup gets `undefined` and answers 404 | look up `req.params.commentId` | high, not executed | `Comments.LikeAsRoutedNotFound` | `Comments.LikeCommentByRoute` |
| api/controllers/comment/comment.controller.ts:61-66 | update and delete compare the caller with the body's `commentator`, never with the stored comment | caller `u2` sends `commentator: "u2"` for a comment written by `u1`: the comment is rewritten or deleted | allow only the stored comment's commentator | high, not executed | `Comments.AnyoneCanEditAnyComment` | `Comments.UpdateOwnComment` |
| dist/controllers/post/post.Controller.js:107-114 | `userDeletePost` compares the caller with the path `userId` only, then deletes the post by id | caller `u2` requests `/delete-post/p1/u2` for post `p1` written by `u1`: the post is deleted | allow only the stored post's author | high, not executed | `LegacyPostController.AnyoneCanDeleteAnyPost` | `LegacyPostController.UserDeleteOwnPost` |
| dist/controllers/post/post.Controller.js:173-180 | `userUpdatePost` compares the caller with the path `userId` only, then updates the post by id | caller `u2` requests `/update-post/p1/u2` with a title for post `p1` written by `u1`: the post is rewritten | allow only the stored post's author | high, not executed | `LegacyPostController.AnyoneCanEditAnyPost` | `LegacyPostController.UserUpdateOwnPost` |

=== FILE: auth.dfy ===
/**
 * `registerNewUser` and `userLogin`: field checks that run in a fixed order, where the first
 * failing check alone decides the response, followed by the store decisions (duplicate email,
 * user creation, password comparison, token issue). Every rejection is sent with HTTP 200 and
 * `requestStatus: Error`; none is thrown.
 */
module Auth {
  import opened Wrappers
  import opened JsText
  import opened Http
  import opened External
  import opened UserModel
  import opened Tokens
  import opened Validation

  /** The body fields the two handlers read; login never reads `displayName`. */
  datatype Form = Form(email: Option<string>, password: Option<string>, displayName: Option<string>)

  /** The `fieldError` a rejection names. */
  datatype Field = EmailField | PasswordField | DisplayNameField

  function FieldName(f: Field): string {
    match f
    case EmailField => "email"
    case PasswordField => "password"
    case DisplayNameField => "displayName"
  }

  /** Every check either handler performs. */
  datatype Check =
    | EmailRequired | PasswordRequired | DisplayNameRequired
    | EmailFormat | PasswordLength | DisplayNameLength | DisplayNameChars
    | EmailInUse | EmailUnknown | PasswordMismatch

  function CheckField(c: Check): Field {
    match c
    case EmailRequired => EmailField
    case EmailFormat => EmailField
    case EmailInUse => EmailField
    case EmailUnknown => EmailField
    case PasswordRequired => PasswordField
    case PasswordLength => PasswordField
    case PasswordMismatch => PasswordField
    case DisplayNameRequired => DisplayNameField
    case DisplayNameLength => DisplayNameField
    case DisplayNameChars => DisplayNameField
  }

  /** Whether one check, taken on its own, rejects the request. */
  predicate Fails(users: seq<User>, svc: Services, form: Form, c: Check) {
    var email := form.email.GetOr("");
    var password := form.password.GetOr("");
    var name := form.displayName.GetOr("");
    match c
    case EmailRequired => !Truthy(form.email)
    case PasswordRequired => !Truthy(form.password)
    case DisplayNameRequired => !Truthy(form.displayName)
    case EmailFormat => Truthy(form.email) && !svc.isValidEmail(email)
    case PasswordLength => Truthy(form.password) && Utf16Length(password) < 6
    case DisplayNameLength => Truthy(form.displayName) && (Utf16Length(name) <= 3 || Utf16Length(name) > 14)
    case DisplayNameChars => Truthy(form.displayName) && (' ' in name || !AlnumOnly(name))
    case EmailInUse => EmailTaken(users, email)
    case EmailUnknown => !EmailTaken(users, email)
    case PasswordMismatch =>
      var u := FindByEmail(users, email);
      u.Some? && !svc.matches(password, u.value.password)
  }

  /** The order in which `registerNewUser` runs its checks. */
  const RegisterOrder: seq<Check> :=
    [EmailRequired, PasswordRequired, DisplayNameRequired, EmailFormat, PasswordLength,
     DisplayNameLength, DisplayNameChars, EmailInUse]

  /** The order in which `userLogin` runs its checks. */
  const LoginOrder: seq<Check> :=
    [EmailRequired, PasswordRequired, EmailFormat, PasswordLength, EmailUnknown, PasswordMismatch]

  /** The checks as a function from check to verdict, the shape `FirstFailure` takes. */
  function FailsOn(users: seq<User>, svc: Services, form: Form): Check -> bool {
    c => Fails(users, svc, form, c)
  }

  /** The checks that consult the store (`Users.findOne`); every other check reads the body alone. */
  predicate ReadsStore(c: Check) {
    c == EmailInUse || c == EmailUnknown || c == PasswordMismatch
  }

  /**
   * Whether a handler gets as far as its `findOne` lookup: the first `n` checks of `order`,
   * the ones before the lookup, all pass.
   */
  predicate ReachesLookup(users: seq<User>, svc: Services, form: Form, order: seq<Check>, n: nat)
    requires n <= |order|
  {
    forall i :: 0 <= i < n ==> !Fails(users, svc, form, order[i])
  }

  /**
   * `registerNewUser`'s outcomes. `LookupThrows` is a rejected `findOne`: it sits outside any
   * `try`, so the handler's promise rejects and no response is sent.
   */
  datatype RegisterReply = Rejected(check: Check) | Registered | NetworkError | LookupThrows

  /** What goes on the wire for a registration outcome. */
  datatype Wire = Wire(http: nat, status: RequestStatus, fieldError: Option<string>)

  function RegisterWire(r: RegisterReply): (w: Option<Wire>)
    ensures w.None? <==> r.LookupThrows?
    ensures w.Some? ==> (w.value.http == 201 <==> r.Registered?)
    ensures w.Some? && !r.Registered? ==> w.value.http == 200 && w.value.status == Error
    ensures r.Registered? ==> w.value.status == Success && w.value.fieldError.None?
    ensures r.Rejected? ==> w.value.fieldError == Some(FieldName(CheckField(r.check)))
  {
    match r
    case Rejected(c) => Some(Wire(200, Error, Some(FieldName(CheckField(c)))))
    case Registered => Some(Wire(201, Success, None))
    case NetworkError => Some(Wire(200, Error, None))
    case LookupThrows => None
  }

  /**
   * `registerNewUser`. `newId` is the `_id` the new document receives, `lookupFails` stands
   * for a store failure in the duplicate-email `findOne` and `saveFails` for one during `save()`.
   */
  function Register(users: seq<User>, form: Form, svc: Services, newId: UserId, lookupFails: bool, saveFails: bool)
    : (out: Step<RegisterReply, seq<User>>)
    ensures out.reply == LookupThrows <==> lookupFails && ReachesLookup(users, svc, form, RegisterOrder, 7)
    ensures out.reply.Rejected? <==>
              FirstFailure(RegisterOrder, FailsOn(users, svc, form)).Some?
              && !(lookupFails && ReachesLookup(users, svc, form, RegisterOrder, 7))
    ensures out.reply.Rejected? ==> out.reply.check == FirstFailure(RegisterOrder, FailsOn(users, svc, form)).value
    ensures out.reply.Registered? <==>
              && FirstFailure(RegisterOrder, FailsOn(users, svc, form)).None?
              && !lookupFails && !saveFails && svc.hash(form.password.value) != "" && !IdTaken(users, newId)
    ensures out.reply.Registered? ==>
              out.store == users + [NewUser(newId, form.displayName.value, form.email.value, svc.hash(form.password.value))]
    ensures !out.reply.Registered? ==> out.store == users
    ensures UsersWellFormed(users) ==> UsersWellFormed(out.store)
  {
    var failed := RegisterValidation(users, form, svc);
    RegisterLookupReached(users, form, svc);
    if lookupFails && (failed.None? || ReadsStore(failed.value)) then Step(LookupThrows, users)
    else if failed.Some? then Step(Rejected(failed.value), users)
    else
      var saved := SaveUser(users, NewUser(newId, form.displayName.value, form.email.value, svc.hash(form.password.value)));
      if saveFails || saved.None? then Step(NetworkError, users)
      else Step(Registered, saved.value)
  }

  /** The checks of `registerNewUser`, written as the handler runs them: presence first, ... */
  function RegisterValidation(users: seq<User>, form: Form, svc: Services): (r: Option<Check>)
    ensures r == FirstFailure(RegisterOrder, FailsOn(users, svc, form))
  {
    RegisterFollowsOrder(users, form, svc);
    if !Truthy(form.email) then Some(EmailRequired)
    else if !Truthy(form.password) then Some(PasswordRequired)
    else if !Truthy(form.displayName) then Some(DisplayNameRequired)
    else RegisterFieldChecks(users, form, svc)
  }

  /** ... then the format checks and the duplicate-email lookup on the fields now known to be present. */
  function RegisterFieldChecks(users: seq<User>, form: Form, svc: Services): (r: Option<Check>)
    requires Truthy(form.email) && Truthy(form.password) && Truthy(form.displayName)
    ensures r ==
      if Fails(users, svc, form, EmailFormat) then Some(EmailFormat)
      else if Fails(users, svc, form, PasswordLength) then Some(PasswordLength)
      else if Fails(users, svc, form, DisplayNameLength) then Some(DisplayNameLength)
      else if Fails(users, svc, form, DisplayNameChars) then Some(DisplayNameChars)
      else if Fails(users, svc, form, EmailInUse) then Some(EmailInUse)
      else None
  {
    var email := form.email.value;
    var password := form.password.value;
    var name := form.displayName.value;
    if !svc.isValidEmail(email) then Some(EmailFormat)
    else if Utf16Length(password) < 6 then Some(PasswordLength)
    else if Utf16Length(name) <= 3 || Utf16Length(name) > 14 then Some(DisplayNameLength)
    else if ' ' in name || !AlnumOnly(name) then Some(DisplayNameChars)
    else if FindByEmail(users, email).Some? then Some(EmailInUse)
    else None
  }

  /** `FirstFailure` over `RegisterOrder`, unfolded into the handler's if-chain. */
  lemma RegisterFollowsOrder(users: seq<User>, form: Form, svc: Services)
    ensures FirstFailure(RegisterOrder, FailsOn(users, svc, form)) ==
      if Fails(users, svc, form, EmailRequired) then Some(EmailRequired)
      else if Fails(users, svc, form, PasswordRequired) then Some(PasswordRequired)
      else if Fails(users, svc, form, DisplayNameRequired) then Some(DisplayNameRequired)
      else if Fails(users, svc, form, EmailFormat) then Some(EmailFormat)
      else if Fails(users, svc, form, PasswordLength) then Some(PasswordLength)
      else if Fails(users, svc, form, DisplayNameLength) then Some(DisplayNameLength)
      else if Fails(users, svc, form, DisplayNameChars) then Some(DisplayNameChars)
      else if Fails(users, svc, form, EmailInUse) then Some(EmailInUse)
      else None
  {
    var o := RegisterOrder;
    assert o[1..][1..][1..][1..][1..][1..][1..][1..] == [];
  }

  /** Registration reaches its lookup exactly when no check fails or the first failure is the one that reads the store. */
  lemma RegisterLookupReached(users: seq<User>, form: Form, svc: Services)
    ensures var r := FirstFailure(RegisterOrder, FailsOn(users, svc, form));
            ReachesLookup(users, svc, form, RegisterOrder, 7) <==> r.None? || ReadsStore(r.value)
  {
    RegisterFollowsOrder(users, form, svc);
    var o := RegisterOrder;
    assert o[0] == EmailRequired && o[1] == PasswordRequired && o[2] == DisplayNameRequired && o[3] == EmailFormat
        && o[4] == PasswordLength && o[5] == DisplayNameLength && o[6] == DisplayNameChars;
  }

  /**
   * `userLogin`'s outcomes. `LoginThrows` is an exception outside any `try` (a rejected
   * `findOne`, or the `throw` when `JWT_SECRET` is unset): no response is sent.
   */
  datatype LoginReply = LoginRejected(check: Check) | LoggedIn(cookie: Token, data: UserInfo) | LoginThrows

  /** The name of the cookie that carries the login token. */
  const LoginCookie: string := "access_token"

  /** The login token's lifetime: "1d". */
  const LoginLifetime: nat := 86400

  /**
   * What goes on the wire for a login outcome: every answer is HTTP 200, and only a login
   * carries `requestStatus: Success`; the unset-secret `throw` sends nothing.
   */
  function LoginWire(r: LoginReply): (w: Option<Wire>)
    ensures w.None? <==> r.LoginThrows?
    ensures w.Some? ==> w.value.http == 200
    ensures w.Some? ==> (w.value.status == Success <==> r.LoggedIn?)
    ensures r.LoginRejected? ==> w.value.fieldError == Some(FieldName(CheckField(r.check)))
    ensures r.LoggedIn? ==> w.value.fieldError.None?
  {
    match r
    case LoginRejected(c) => Some(Wire(200, Error, Some(FieldName(CheckField(c)))))
    case LoggedIn(_, _) => Some(Wire(200, Success, None))
    case LoginThrows => None
  }

  /** `userLogin`. It reads the store but never changes it; `lookupFails` stands for a store failure in its `findOne`. */
  function Login(users: seq<User>, form: Form, svc: Services, env: Secrets, now: nat, lookupFails: bool): (r: LoginReply)
    ensures r.LoginThrows? <==>
              (lookupFails && ReachesLookup(users, svc, form, LoginOrder, 4))
              || (FirstFailure(LoginOrder, FailsOn(users, svc, form)).None? && env.jwtSecret == "")
    ensures r.LoginRejected? <==>
              FirstFailure(LoginOrder, FailsOn(users, svc, form)).Some?
              && !(lookupFails && ReachesLookup(users, svc, form, LoginOrder, 4))
    ensures r.LoginRejected? ==> r.check == FirstFailure(LoginOrder, FailsOn(users, svc, form)).value
    ensures r.LoggedIn? <==> FirstFailure(LoginOrder, FailsOn(users, svc, form)).None? && !lookupFails && env.jwtSecret != ""
    ensures r.LoggedIn? ==>
              var u := FindByEmail(users, form.email.value);
              && u.Some? && u.value.email == form.email.value
              && svc.matches(form.password.value, u.value.password)
              && r.data == Public(u.value)
              && r.cookie == Token(Claims(u.value.id, None), env.jwtSecret, now, now + LoginLifetime)
  {
    var failed := LoginValidation(users, form, svc);
    LoginLookupReached(users, form, svc);
    if lookupFails && (failed.None? || ReadsStore(failed.value)) then LoginThrows
    else if failed.Some? then LoginRejected(failed.value)
    else if env.jwtSecret == "" then LoginThrows
    else
      var found := FindByEmail(users, form.email.value);
      var token := Sign(Claims(found.value.id, None), env.jwtSecret, now, LoginLifetime);
      LoggedIn(token.value, Public(found.value))
  }

  /** The checks of `userLogin`, written as the handler runs them. */
  function LoginValidation(users: seq<User>, form: Form, svc: Services): (r: Option<Check>)
    ensures r == FirstFailure(LoginOrder, FailsOn(users, svc, form))
  {
    LoginFollowsOrder(users, form, svc);
    var email := form.email.GetOr("");
    var password := form.password.GetOr("");
    if !Truthy(form.email) then Some(EmailRequired)
    else if !Truthy(form.password) then Some(PasswordRequired)
    else if !svc.isValidEmail(email) then Some(EmailFormat)
    else if Utf16Length(password) < 6 then Some(PasswordLength)
    else
      var found := FindByEmail(users, email);
      if found.None? then Some(EmailUnknown)
      else if !svc.matches(password, found.value.password) then Some(PasswordMismatch)
      else None
  }

  lemma LoginFollowsOrder(users: seq<User>, form: Form, svc: Services)
    ensures FirstFailure(LoginOrder, FailsOn(users, svc, form)) ==
      if Fails(users, svc, form, EmailRequired) then Some(EmailRequired)
      else if Fails(users, svc, form, PasswordRequired) then Some(PasswordRequired)
      else if Fails(users, svc, form, EmailFormat) then Some(EmailFormat)
      else if Fails(users, svc, form, PasswordLength) then Some(PasswordLength)
      else if Fails(users, svc, form, EmailUnknown) then Some(EmailUnknown)
      else if Fails(users, svc, form, PasswordMismatch) then Some(PasswordMismatch)
      else None
  {
    var o := LoginOrder;
    assert o[1..][1..][1..][1..][1..][1..] == [];
  }

  /** Login reaches its lookup exactly when no check fails or the first failure is one that reads the store. */
  lemma LoginLookupReached(users: seq<User>, form: Form, svc: Services)
    ensures var r := FirstFailure(LoginOrder, FailsOn(users, svc, form));
            ReachesLookup(users, svc, form, LoginOrder, 4) <==> r.None? || ReadsStore(r.value)
  {
    LoginFollowsOrder(users, form, svc);
    var o := LoginOrder;
    assert o[0] == EmailRequired && o[1] == PasswordRequired && o[2] == EmailFormat && o[3] == PasswordLength;
  }

  /**
   * With a present, well-formed email and a present display name, a registration password of
   * at most 5 UTF-16 units is refused on the password field, whatever the store does later;
   * one of 6 or more passes that check.
   */
  lemma PasswordBoundary(users: seq<User>, svc: Services, form: Form, newId: UserId, lookupFails: bool, saveFails: bool)
    requires Truthy(form.email) && svc.isValidEmail(form.email.value) && Truthy(form.displayName) && Truthy(form.password)
    ensures Utf16Length(form.password.value) <= 5 ==>
              var out := Register(users, form, svc, newId, lookupFails, saveFails);
              out.reply == Rejected(PasswordLength) && out.store == users
              && RegisterWire(out.reply) == Some(Wire(200, Error, Some("password")))
    ensures Utf16Length(form.password.value) >= 6 ==> !Fails(users, svc, form, PasswordLength)
  {
    RegisterFollowsOrder(users, form, svc);
  }

  /** A registration display name passes exactly when it has 4 to 14 characters, all ASCII letters or digits. */
  lemma DisplayNameRule(users: seq<User>, svc: Services, form: Form)
    requires Truthy(form.displayName)
    ensures !Fails(users, svc, form, DisplayNameLength) && !Fails(users, svc, form, DisplayNameChars)
            <==> 4 <= |form.displayName.value| <= 14 && AlnumOnly(form.displayName.value)
  {
    var name := form.displayName.value;
    if AlnumOnly(name) {
      assert forall i :: 0 <= i < |name| ==> name[i] as int < 0x1_0000;
    }
    if !Fails(users, svc, form, DisplayNameChars) {
      assert forall i :: 0 <= i < |name| ==> name[i] as int < 0x1_0000;
    }
  }

  /** A registration for an email already in the store is refused on the email field and changes nothing. */
  lemma DuplicateEmailRejected(users: seq<User>, form: Form, svc: Services, newId: UserId, saveFails: bool)
    requires forall i :: 0 <= i < 7 ==> !Fails(users, svc, form, RegisterOrder[i])
    requires EmailTaken(users, form.email.GetOr(""))
    ensures var out := Register(users, form, svc, newId, false, saveFails);
            out.reply == Rejected(EmailInUse) && out.store == users
            && RegisterWire(out.reply).value.fieldError == Some("email")
  {
    RegisterFollowsOrder(users, form, svc);
    var o := RegisterOrder;
    assert !Fails(users, svc, form, o[0]) && !Fails(users, svc, form, o[1]) && !Fails(users, svc, form, o[2])
        && !Fails(users, svc, form, o[3]) && !Fails(users, svc, form, o[4]) && !Fails(users, svc, form, o[5])
        && !Fails(users, svc, form, o[6]);
  }

  /** A successful registration stores exactly one new user, with the hash and never the plaintext as its password. */
  lemma RegisterStoresHash(users: seq<User>, form: Form, svc: Services, newId: UserId, lookupFails: bool, saveFails: bool)
    requires Register(users, form, svc, newId, lookupFails, saveFails).reply.Registered?
    ensures var out := Register(users, form, svc, newId, lookupFails, saveFails);
            && |out.store| == |users| + 1
            && out.store[..|users|] == users
            && out.store[|users|].email == form.email.value
            && out.store[|users|].displayName == form.displayName.value
            && out.store[|users|].password == svc.hash(form.password.value)
            && RegisterWire(out.reply).value.http == 201
  {
  }

  /** Registering and then logging in with the same credentials succeeds and returns the new user without its password. */
  lemma {:induction false} RegisterThenLogin(users: seq<User>, form: Form, svc: Services, newId: UserId, env: Secrets, now: nat)
    requires HashSound(svc)
    requires Register(users, form, svc, newId, false, false).reply.Registered?
    requires env.jwtSecret != ""
    ensures var stored := Register(users, form, svc, newId, false, false).store;
            var u := NewUser(newId, form.displayName.value, form.email.value, svc.hash(form.password.value));
            Login(stored, form, svc, env, now, false) == LoggedIn(Token(Claims(newId, None), env.jwtSecret, now, now + LoginLifetime), Public(u))
  {
    var u := NewUser(newId, form.displayName.value, form.email.value, svc.hash(form.password.value));
    assert Truthy(form.email) && Truthy(form.password) && svc.isValidEmail(form.email.value)
           && Utf16Length(form.password.value) >= 6 && !EmailTaken(users, form.email.value) by {
      RegisterFollowsOrder(users, form, svc);
    }
    RegisteredFormPassesLogin(users, form, svc, u);
  }

  /** A form that passed registration's checks passes login's checks against the store with its new user. */
  lemma RegisteredFormPassesLogin(users: seq<User>, form: Form, svc: Services, u: User)
    requires HashSound(svc)
    requires Truthy(form.email) && Truthy(form.password) && svc.isValidEmail(form.email.value)
    requires Utf16Length(form.password.value) >= 6 && !EmailTaken(users, form.email.value)
    requires u.email == form.email.value && u.password == svc.hash(form.password.value)
    ensures FirstFailure(LoginOrder, FailsOn(users + [u], svc, form)).None?
    ensures FindByEmail(users + [u], form.email.value) == Some(u)
  {
    FindByEmailAfterAppend(users, u);
    LoginFollowsOrder(users + [u], form, svc);
  }

  lemma {:induction false} FindByEmailAfterAppend(users: seq<User>, u: User)
    requires !EmailTaken(users, u.email)
    ensures FindByEmail(users + [u], u.email) == Some(u)
    decreases |users|
  {
    if |users| == 0 {
      assert users + [u] == [u];
    } else {
      assert (users + [u])[1..] == users[1..] + [u];
      assert users[0] in users;
      assert !EmailTaken(users[1..], u.email) by {
        forall v | v in users[1..] ensures v.email != u.email {
          assert v in users;
        }
      }
      FindByEmailAfterAppend(users[1..], u);
    }
  }

  /** A wrong password is refused on the password field and no token is issued. */
  lemma WrongPasswordNoToken(users: seq<User>, form: Form, svc: Services, env: Secrets, now: nat)
    requires forall i :: 0 <= i < 4 ==> !Fails(users, svc, form, LoginOrder[i])
    requires EmailTaken(users, form.email.GetOr(""))
    requires !svc.matches(form.password.GetOr(""), FindByEmail(users, form.email.GetOr("")).value.password)
    ensures Login(users, form, svc, env, now, false) == LoginRejected(PasswordMismatch)
  {
    LoginFollowsOrder(users, form, svc);
    var o := LoginOrder;
    assert !Fails(users, svc, form, o[0]) && !Fails(users, svc, form, o[1]) && !Fails(users, svc, form, o[2])
        && !Fails(users, svc, form, o[3]);
  }

  /** Login never looks at the account status: locking a user changes nothing but the status in the returned profile. */
  lemma {:induction false} LoginIgnoresStatus(users: seq<User>, form: Form, svc: Services, env: Secrets, now: nat,
                                              lookupFails: bool, id: UserId, s: Status)
    ensures var a := Login(WithStatus(users, id, s), form, svc, env, now, lookupFails);
            var b := Login(users, form, svc, env, now, lookupFails);
            && a.LoginRejected? == b.LoginRejected?
            && a.LoggedIn? == b.LoggedIn?
            && (a.LoginRejected? ==> a.check == b.check)
            && (a.LoggedIn? ==> a.cookie == b.cookie && a.data == b.data.(status := a.data.status))
  {
    var locked := WithStatus(users, id, s);
    FindByEmailIgnoresStatus(users, form.email.GetOr(""), id, s);
    assert LoginValidation(locked, form, svc) == LoginValidation(users, form, svc);
    if form.email.Some? {
      FindByEmailIgnoresStatus(users, form.email.value, id, s);
    }
  }
}

=== FILE: collections.dfy ===
/**
 * Sequence operations the stores and handlers share: keeping the documents a query matches,
 * uniqueness of a key (what a unique index enforces), and JavaScript's `indexOf` / `splice`
 * on arrays.
 */
module Collections {

  /** The elements that satisfy `keep`, in their original order. */
  function Filter<T(!new)>(xs: seq<T>, keep: T -> bool): (r: seq<T>)
    ensures forall x :: x in r <==> x in xs && keep(x)
    ensures |r| <= |xs|
    decreases |xs|
  {
    if |xs| == 0 then []
    else
      var rest := Filter(xs[1..], keep);
      assert forall x :: x in xs <==> x == xs[0] || x in xs[1..];
      if keep(xs[0]) then [xs[0]] + rest else rest
  }

  /** No two elements share a key: what a unique index guarantees for a collection. */
  ghost predicate UniqueBy<T, K>(xs: seq<T>, key: T -> K) {
    forall i, j :: 0 <= i < j < |xs| ==> key(xs[i]) != key(xs[j])
  }

  lemma UniqueByTail<T, K>(xs: seq<T>, key: T -> K)
    requires |xs| > 0 && UniqueBy(xs, key)
    ensures UniqueBy(xs[1..], key)
  {
    forall i, j | 0 <= i < j < |xs[1..]| ensures key(xs[1..][i]) != key(xs[1..][j]) {
      assert xs[1..][i] == xs[i + 1] && xs[1..][j] == xs[j + 1];
    }
  }

  /** Removing documents never breaks a unique index. */
  lemma {:induction false} FilterUnique<T(!new), K>(xs: seq<T>, keep: T -> bool, key: T -> K)
    requires UniqueBy(xs, key)
    ensures UniqueBy(Filter(xs, keep), key)
    decreases |xs|
  {
    if |xs| > 0 {
      UniqueByTail(xs, key);
      var rest := Filter(xs[1..], keep);
      FilterUnique(xs[1..], keep, key);
      if keep(xs[0]) {
        var r := [xs[0]] + rest;
        forall i, j | 0 <= i < j < |r| ensures key(r[i]) != key(r[j]) {
          if i == 0 {
            assert r[j] in xs[1..];
            var k :| 0 <= k < |xs[1..]| && xs[1..][k] == r[j];
            assert xs[k + 1] == r[j];
          } else {
            assert r[i] == rest[i - 1] && r[j] == rest[j - 1];
          }
        }
      }
    }
  }

  /** Inserting a document whose key is new keeps the key unique. */
  lemma AppendUnique<T, K>(xs: seq<T>, x: T, key: T -> K)
    requires UniqueBy(xs, key)
    requires forall i :: 0 <= i < |xs| ==> key(xs[i]) != key(x)
    ensures UniqueBy(xs + [x], key)
  {
  }

  /** `xs.indexOf(x)`: the first position holding `x`, or -1. */
  function IndexOf<T(==)>(xs: seq<T>, x: T): (i: int)
    ensures -1 <= i < |xs|
    ensures i == -1 <==> x !in xs
    ensures 0 <= i ==> xs[i] == x && x !in xs[..i]
    decreases |xs|
  {
    if |xs| == 0 then -1
    else if xs[0] == x then 0
    else
      var k := IndexOf(xs[1..], x);
      assert xs == [xs[0]] + xs[1..];
      if k == -1 then -1
      else
        assert xs[..k + 1] == [xs[0]] + xs[1..][..k];
        k + 1
  }

  /** `xs.splice(i, 1)`: the sequence without position `i`. */
  function RemoveAt<T>(xs: seq<T>, i: nat): (r: seq<T>)
    requires i < |xs|
    ensures |r| == |xs| - 1
    ensures r[..i] == xs[..i] && r[i..] == xs[i + 1..]
    ensures multiset(r) == multiset(xs) - multiset{xs[i]}
  {
    assert xs == xs[..i] + [xs[i]] + xs[i + 1..];
    xs[..i] + xs[i + 1..]
  }

  /** Deleting the first element equal to `x`, if there is one; everything else keeps its order. */
  function RemoveFirst<T(==)>(xs: seq<T>, x: T): (r: seq<T>)
    ensures x !in xs ==> r == xs
    ensures x in xs ==> |r| == |xs| - 1
    ensures multiset(r) == multiset(xs) - multiset{x}
  {
    var i := IndexOf(xs, x);
    if i == -1 then
      assert multiset(xs)[x] == 0;
      xs
    else RemoveAt(xs, i)
  }

  /** No element occurs twice. */
  ghost predicate Distinct<T>(xs: seq<T>) {
    forall i, j :: 0 <= i < j < |xs| ==> xs[i] != xs[j]
  }
}

=== FILE: comments.dfy ===
/**
 * The comment handlers: create, update and delete, each guarded by an ownership check on the
 * body's `commentator`, and `likeComment`, which toggles the caller's id in the comment's
 * like list with `indexOf` / `push` / `splice`.
 */
module Comments {
  import opened Wrappers
  import opened Collections
  import opened JsText
  import opened UserModel
  import opened PostModel

  type CommentId = string

  /**
   * A stored comment with the fields the handlers write: `content` (required), `post` and
   * `commentator` as the request gave them, and the ids of the users who like it.
   */
  datatype Comment = Comment(id: CommentId, content: string, post: Option<PostId>, commentator: Option<UserId>, like: seq<UserId>)

  /** The body fields the handlers read. */
  datatype CommentBody = CommentBody(content: Option<string>, post: Option<PostId>, commentator: Option<UserId>)

  datatype CommentReply = CommentForbidden | CommentCreated | CommentUpdated | CommentDeleted | CommentFailed

  function CommentStatus(r: CommentReply): nat {
    match r
    case CommentForbidden => 403
    case CommentCreated => 201
    case CommentUpdated => 200
    case CommentDeleted => 200
    case CommentFailed => 500
  }

  /** The guard of all three handlers: `commentator !== req.user?.id`, with two absent values counting as equal. */
  predicate Permitted(caller: Option<UserId>, body: CommentBody) {
    body.commentator == caller
  }

  /**
   * `createNewComment`. `newId` is the new document's `_id`; `saveFails` a store failure. The
   * `required` validator on `content` rejects a missing or empty content.
   */
  function CreateComment(comments: seq<Comment>, caller: Option<UserId>, body: CommentBody,
                         newId: CommentId, saveFails: bool): (out: Step<CommentReply, seq<Comment>>)
    ensures out.reply == CommentForbidden <==> !Permitted(caller, body)
    ensures out.reply == CommentCreated <==> Permitted(caller, body) && Truthy(body.content) && !saveFails
    ensures out.reply == CommentCreated ==>
              out.store == comments + [Comment(newId, body.content.value, body.post, body.commentator, [])]
    ensures out.reply != CommentCreated ==> out.store == comments
  {
    if !Permitted(caller, body) then Step(CommentForbidden, comments)
    else if !Truthy(body.content) || saveFails then Step(CommentFailed, comments)
    else Step(CommentCreated, comments + [Comment(newId, body.content.value, body.post, body.commentator, [])])
  }

  /** The comments with `content` of the one whose `_id` is `id` set by `$set: { content }`; an absent content changes nothing. */
  function SetContent(comments: seq<Comment>, id: CommentId, content: Option<string>): (r: seq<Comment>)
    ensures |r| == |comments|
    ensures forall i :: 0 <= i < |comments| ==>
              r[i] == if comments[i].id == id then comments[i].(content := content.GetOr(comments[i].content)) else comments[i]
  {
    seq(|comments|, i requires 0 <= i < |comments| =>
      if comments[i].id == id then comments[i].(content := content.GetOr(comments[i].content)) else comments[i])
  }

  /** `updateComment` as written: the guard compares the caller with the body's `commentator`, never with the stored one. */
  function UpdateComment(comments: seq<Comment>, caller: Option<UserId>, commentId: CommentId, body: CommentBody,
                         storeFails: bool): (out: Step<CommentReply, seq<Comment>>)
    ensures out.reply == CommentForbidden <==> !Permitted(caller, body)
    ensures out.reply == CommentUpdated <==> Permitted(caller, body) && !storeFails
    ensures out.reply == CommentUpdated ==> out.store == SetContent(comments, commentId, body.content)
    ensures out.reply != CommentUpdated ==> out.store == comments
  {
    if !Permitted(caller, body) then Step(CommentForbidden, comments)
    else if storeFails then Step(CommentFailed, comments)
    else Step(CommentUpdated, SetContent(comments, commentId, body.content))
  }

  /** An update changes nothing but the content of the addressed comment; the store keeps its order and length. */
  lemma UpdateChangesOnlyContent(comments: seq<Comment>, caller: Option<UserId>, commentId: CommentId,
                                 body: CommentBody, storeFails: bool)
    ensures var out := UpdateComment(comments, caller, commentId, body, storeFails);
            && |out.store| == |comments|
            && forall i :: 0 <= i < |comments| ==>
                 && out.store[i].(content := comments[i].content) == comments[i]
                 && (comments[i].id != commentId ==> out.store[i] == comments[i])
  {
  }

  function CommentIdOf(c: Comment): CommentId { c.id }

  /** `deleteComment` as written: the same guard on the body, then `findByIdAndDelete(commentId)`. */
  function DeleteComment(comments: seq<Comment>, caller: Option<UserId>, commentId: CommentId, body: CommentBody,
                         storeFails: bool): (out: Step<CommentReply, seq<Comment>>)
    ensures out.reply == CommentForbidden <==> !Permitted(caller, body)
    ensures out.reply == CommentDeleted <==> Permitted(caller, body) && !storeFails
    ensures out.reply == CommentDeleted ==> forall c :: c in out.store <==> c in comments && c.id != commentId
    ensures out.reply != CommentDeleted ==> out.store == comments
  {
    if !Permitted(caller, body) then Step(CommentForbidden, comments)
    else if storeFails then Step(CommentFailed, comments)
    else Step(CommentDeleted, Filter(comments, (c: Comment) => c.id != commentId))
  }

  /**
   * The guard never looks at the stored comment: any signed-in user who names themself as
   * `commentator` in the body can rewrite or delete someone else's comment.
   */
  lemma AnyoneCanEditAnyComment(c: Comment, intruder: UserId, text: string)
    requires c.commentator.Some? && c.commentator.value != intruder
    ensures var body := CommentBody(Some(text), None, Some(intruder));
            && UpdateComment([c], Some(intruder), c.id, body, false).store == [c.(content := text)]
            && DeleteComment([c], Some(intruder), c.id, body, false).store == []
  {
  }

  /** The guard the messages promise: the caller must be the stored comment's commentator. */
  predicate OwnsComment(comments: seq<Comment>, caller: Option<UserId>, commentId: CommentId) {
    caller.Some? && exists c :: c in comments && c.id == commentId && c.commentator == caller
  }

  /** `updateComment` with the ownership guard on the stored comment. */
  function UpdateOwnComment(comments: seq<Comment>, caller: Option<UserId>, commentId: CommentId, body: CommentBody,
                            storeFails: bool): (out: Step<CommentReply, seq<Comment>>)
    ensures out.reply == CommentForbidden <==> !OwnsComment(comments, caller, commentId)
    ensures out.reply == CommentUpdated ==> out.store == SetContent(comments, commentId, body.content)
    ensures out.reply != CommentUpdated ==> out.store == comments
  {
    if !OwnsComment(comments, caller, commentId) then Step(CommentForbidden, comments)
    else if storeFails then Step(CommentFailed, comments)
    else Step(CommentUpdated, SetContent(comments, commentId, body.content))
  }

  /** `deleteComment` with the ownership guard on the stored comment. */
  function DeleteOwnComment(comments: seq<Comment>, caller: Option<UserId>, commentId: CommentId,
                            storeFails: bool): (out: Step<CommentReply, seq<Comment>>)
    ensures out.reply == CommentForbidden <==> !OwnsComment(comments, caller, commentId)
    ensures out.reply == CommentDeleted ==> forall c :: c in out.store <==> c in comments && c.id != commentId
    ensures out.reply != CommentDeleted ==> out.store == comments
  {
    if !OwnsComment(comments, caller, commentId) then Step(CommentForbidden, comments)
    else if storeFails then Step(CommentFailed, comments)
    else Step(CommentDeleted, Filter(comments, (c: Comment) => c.id != commentId))
  }

  /** With the guard on the stored comment, only its commentator can change or remove it. */
  lemma OnlyOwnerChangesComment(comments: seq<Comment>, caller: Option<UserId>, commentId: CommentId,
                                body: CommentBody, storeFails: bool)
    requires UniqueBy(comments, CommentIdOf)
    ensures forall i :: 0 <= i < |comments| && comments[i].id == commentId && comments[i].commentator != caller ==>
              && UpdateOwnComment(comments, caller, commentId, body, storeFails).store == comments
              && DeleteOwnComment(comments, caller, commentId, storeFails).store == comments
  {
  }

  // ---------------------------------------------------------------- likeComment

  /** `userIndex = like.indexOf(user)`, then `push` when absent and `splice(userIndex, 1)` when present. */
  function Toggle(likes: seq<UserId>, user: UserId): (r: seq<UserId>)
    ensures user !in likes ==> r == likes + [user]
    ensures user in likes ==> r == RemoveFirst(likes, user)
  {
    var i := IndexOf(likes, user);
    if i == -1 then likes + [user] else RemoveAt(likes, i)
  }

  /** The new list differs from the old one by exactly one entry. */
  lemma ToggleLength(likes: seq<UserId>, user: UserId)
    ensures |Toggle(likes, user)| == if user in likes then |likes| - 1 else |likes| + 1
  {
  }

  /** Only the caller's first like goes; every other entry keeps its relative order. */
  lemma ToggleRemovesFirst(likes: seq<UserId>, user: UserId)
    requires user in likes
    ensures exists i :: 0 <= i < |likes| && likes[i] == user && user !in likes[..i]
                        && Toggle(likes, user) == likes[..i] + likes[i + 1..]
  {
    var i := IndexOf(likes, user);
    assert likes[i] == user && user !in likes[..i];
  }

  /** When the caller likes a comment at most once, the toggle flips their membership. */
  lemma ToggleFlips(likes: seq<UserId>, user: UserId)
    requires multiset(likes)[user] <= 1
    ensures user in Toggle(likes, user) <==> user !in likes
  {
    if user in likes {
      assert multiset(Toggle(likes, user))[user] == 0;
    }
  }

  /** Toggling twice gives back the same likes, counted with multiplicity, when the caller liked at most once. */
  lemma ToggleTwice(likes: seq<UserId>, user: UserId)
    requires multiset(likes)[user] <= 1
    ensures multiset(Toggle(Toggle(likes, user), user)) == multiset(likes)
    ensures user !in likes ==> Toggle(Toggle(likes, user), user) == likes
  {
    var once := likes + [user];
    if user !in likes {
      var i := IndexOf(once, user);
      assert once[|likes|] == user;
      assert i == |likes|;
      assert once[..i] == likes;
    } else {
      ToggleFlips(likes, user);
    }
  }

  /** A duplicate-free like list stays duplicate-free. */
  lemma ToggleDistinct(likes: seq<UserId>, user: UserId)
    requires Distinct(likes)
    ensures Distinct(Toggle(likes, user))
  {
    var r := Toggle(likes, user);
    if user in likes {
      var i := IndexOf(likes, user);
      forall a, b | 0 <= a < b < |r| ensures r[a] != r[b] {
        var a' := if a < i then a else a + 1;
        var b' := if b < i then b else b + 1;
        assert r[a] == likes[a'] && r[b] == likes[b'];
      }
    }
  }

  /** `likeComment`'s outcomes: 404, 200 with `totalLike`, or 500. */
  datatype LikeReply = LikeNotFound | Liked(totalLike: nat) | LikeFailed

  /** `Comments.findById(id)`; an `undefined` id finds nothing. */
  function FindComment(comments: seq<Comment>, id: Option<CommentId>): (r: Option<Comment>)
    ensures r.Some? <==> id.Some? && exists c :: c in comments && c.id == id.value
    ensures r.Some? ==> r.value in comments && r.value.id == id.value
    decreases |comments|
  {
    if id.None? || |comments| == 0 then None
    else if comments[0].id == id.value then Some(comments[0])
    else
      var r := FindComment(comments[1..], id);
      assert forall c :: c in comments <==> c == comments[0] || c in comments[1..];
      r
  }

  /** The store after `comment.save()` writes the toggled list back to the comment with that `_id`. */
  function SetLikes(comments: seq<Comment>, id: CommentId, likes: seq<UserId>): (r: seq<Comment>)
    ensures |r| == |comments|
    ensures forall i :: 0 <= i < |comments| ==> r[i] == if comments[i].id == id then comments[i].(like := likes) else comments[i]
  {
    seq(|comments|, i requires 0 <= i < |comments| => if comments[i].id == id then comments[i].(like := likes) else comments[i])
  }

  /**
   * `likeComment` given the id it looks up. `user` is the signed-in caller (the gates in front
   * of the route always set it). `lookupFails` is a `findById` that throws, from a store failure
   * or an id that is not an ObjectId (a cast error); `saveFails` a store failure of `save()`.
   * `save()` also runs the schema's `required` validator on `content`, which refuses the empty
   * string an update may have stored. All of these happen inside the handler's `try` and answer 500.
   */
  function LikeComment(comments: seq<Comment>, id: Option<CommentId>, user: UserId, lookupFails: bool, saveFails: bool)
    : (out: Step<LikeReply, seq<Comment>>)
    ensures out.reply == LikeFailed <==>
              lookupFails || (FindComment(comments, id).Some? && (saveFails || FindComment(comments, id).value.content == ""))
    ensures out.reply == LikeNotFound <==> !lookupFails && FindComment(comments, id).None?
    ensures out.reply.Liked? <==>
              !lookupFails && FindComment(comments, id).Some? && !saveFails && FindComment(comments, id).value.content != ""
    ensures !out.reply.Liked? ==> out.store == comments
    ensures out.reply.Liked? ==>
              var c := FindComment(comments, id).value;
              && out.reply.totalLike == |Toggle(c.like, user)|
              && out.store == SetLikes(comments, c.id, Toggle(c.like, user))
  {
    var found := FindComment(comments, id);
    if lookupFails then Step(LikeFailed, comments)
    else if found.None? then Step(LikeNotFound, comments)
    else if saveFails || found.value.content == "" then Step(LikeFailed, comments)
    else
      var likes := Toggle(found.value.like, user);
      Step(Liked(|likes|), SetLikes(comments, found.value.id, likes))
  }

  /** Route parameters by name. */
  type Params = map<string, string>

  /** `req.params[name]`: `undefined` when the route binds no such parameter. */
  function Param(params: Params, name: string): Option<string> {
    if name in params then Some(params[name]) else None
  }

  /** The route `/like-comment/:commentId` binds `commentId`, but the handler reads `req.params.id`. */
  function LikeCommentAsRouted(comments: seq<Comment>, commentId: CommentId, user: UserId, lookupFails: bool, saveFails: bool)
    : Step<LikeReply, seq<Comment>>
  {
    LikeComment(comments, Param(map["commentId" := commentId], "id"), user, lookupFails, saveFails)
  }

  /**
   * As routed, every like request that the store answers gets 404, whatever comments exist;
   * no request ever changes a comment.
   */
  lemma LikeAsRoutedNotFound(comments: seq<Comment>, commentId: CommentId, user: UserId, lookupFails: bool, saveFails: bool)
    ensures LikeCommentAsRouted(comments, commentId, user, lookupFails, saveFails)
            == Step(if lookupFails then LikeFailed else LikeNotFound, comments)
  {
    assert Param(map["commentId" := commentId], "id") == None;
  }

  /** The handler reading the parameter the route binds. */
  function LikeCommentByRoute(comments: seq<Comment>, commentId: CommentId, user: UserId, lookupFails: bool, saveFails: bool)
    : (out: Step<LikeReply, seq<Comment>>)
    ensures out.reply == LikeFailed <==>
              || lookupFails
              || ((exists c :: c in comments && c.id == commentId) && (saveFails || FindComment(comments, Some(commentId)).value.content == ""))
    ensures out.reply == LikeNotFound <==> !lookupFails && !exists c :: c in comments && c.id == commentId
    ensures !out.reply.Liked? ==> out.store == comments
    ensures out.reply.Liked? ==>
              exists c :: c in comments && c.id == commentId && c.content != ""
                && out.reply.totalLike == |Toggle(c.like, user)|
                && out.store == SetLikes(comments, commentId, Toggle(c.like, user))
  {
    LikeComment(comments, Param(map["commentId" := commentId], "commentId"), user, lookupFails, saveFails)
  }

  /**
   * Read from the bound parameter, a like on an existing comment with content flips the caller's
   * like and reports the new count; on a comment whose content was emptied the save is refused.
   */
  lemma LikeByRouteToggles(comments: seq<Comment>, c: Comment, user: UserId)
    requires UniqueBy(comments, CommentIdOf) && c in comments
    requires multiset(c.like)[user] <= 1
    ensures var out := LikeCommentByRoute(comments, c.id, user, false, false);
            c.content == "" ==> out == Step(LikeFailed, comments)
    ensures var out := LikeCommentByRoute(comments, c.id, user, false, false);
            c.content != "" ==>
            && out.reply == Liked(|Toggle(c.like, user)|)
            && (user in Toggle(c.like, user) <==> user !in c.like)
            && forall i :: 0 <= i < |comments| ==>
                 out.store[i] == if comments[i] == c then c.(like := Toggle(c.like, user)) else comments[i]
  {
    var found := FindComment(comments, Some(c.id));
    assert found.value == c by {
      var i :| 0 <= i < |comments| && comments[i] == c;
      var j :| 0 <= j < |comments| && comments[j] == found.value;
      assert CommentIdOf(comments[i]) == CommentIdOf(comments[j]);
    }
    ToggleFlips(c.like, user);
    forall i | 0 <= i < |comments| && comments[i].id == c.id ensures comments[i] == c {
      var k :| 0 <= k < |comments| && comments[k] == c;
      assert CommentIdOf(comments[i]) == CommentIdOf(comments[k]);
    }
  }

  /** Once an update has stored an empty content, every later like of that comment answers 500. */
  lemma EmptiedCommentRefusesLikes(comments: seq<Comment>, c: Comment, caller: Option<UserId>, user: UserId)
    requires c in comments
    ensures var emptied := UpdateComment(comments, caller, c.id, CommentBody(Some(""), None, caller), false).store;
            LikeCommentByRoute(emptied, c.id, user, false, false) == Step(LikeFailed, emptied)
  {
  }
}

=== FILE: favorites.dfy ===
/**
 * The favorites relation: a multiset of (post, user) records. `AddOrRemoveFavoritePost`
 * inserts a record or deletes one matching record; `getFavoritePosts` returns the posts a
 * user's records point to, each marked as a favorite.
 */
module Favorites {
  import opened Wrappers
  import opened Collections
  import opened Http
  import opened UserModel
  import opened PostModel

  datatype Favorite = Favorite(post: PostId, user: UserId)

  /**
   * The body of `AddOrRemoveFavoritePost`. `isAddFavorite` is the truthiness of the body field,
   * which is all the handler's `if` reads: a string "false" adds, a missing field removes.
   */
  datatype FavoriteBody = FavoriteBody(postId: PostId, userId: UserId, isAddFavorite: bool)

  /** Replies with their HTTP status and `requestStatus`. */
  datatype FavoriteReply =
    | NotAllowed                  // 403, Error, "Error.Post.Not.Allowed.Action" / "Error.Not.Allowed.Access.Favorite"
    | Added                       // 200, Success, "Successful.Add.Favorite"
    | Removed                     // 200, Success, "Successful.Remove.Favorite"
    | Favorites(data: seq<FavoritePost>) // 200, Success, "Successful.Get.Favorite"
    | NetworkError                // 500, Error, "Error.Network"

  /** A post as `getFavoritePosts` returns it: the stored post spread with `isFavorite: true`. */
  datatype FavoritePost = FavoritePost(post: Post, isFavorite: bool)

  function FavoriteStatus(r: FavoriteReply): (n: nat)
    ensures n == 500 <==> r.NetworkError?
  {
    match r
    case NotAllowed => 403
    case NetworkError => 500
    case _ => 200
  }

  function FavoriteRequestStatus(r: FavoriteReply): RequestStatus {
    if r.NotAllowed? || r.NetworkError? then Error else Success
  }

  /** `AddOrRemoveFavoritePost`. `storeFails` is a failure of `save()` or `deleteOne()`. */
  function AddOrRemove(favs: seq<Favorite>, caller: Option<UserId>, body: FavoriteBody, storeFails: bool)
    : (out: Step<FavoriteReply, seq<Favorite>>)
    ensures out.reply == NotAllowed <==> caller != Some(body.userId)
    ensures out.reply == NetworkError <==> caller == Some(body.userId) && storeFails
    ensures out.reply == Added <==> caller == Some(body.userId) && !storeFails && body.isAddFavorite
    ensures out.reply == Removed <==> caller == Some(body.userId) && !storeFails && !body.isAddFavorite
    ensures out.reply == Added ==> out.store == favs + [Favorite(body.postId, body.userId)]
    ensures out.reply == Removed ==> out.store == RemoveFirst(favs, Favorite(body.postId, body.userId))
    ensures !(out.reply == Added || out.reply == Removed) ==> out.store == favs
  {
    if caller != Some(body.userId) then Step(NotAllowed, favs)
    else if storeFails then Step(NetworkError, favs)
    else if body.isAddFavorite then Step(Added, favs + [Favorite(body.postId, body.userId)])
    else Step(Removed, RemoveFirst(favs, Favorite(body.postId, body.userId)))
  }

  /**
   * Adding always inserts, so a repeated add counts the pair twice; removing takes away at most
   * one matching record and is a no-op when none matches. No other record is affected.
   */
  lemma AddRemoveCounts(favs: seq<Favorite>, caller: Option<UserId>, body: FavoriteBody)
    requires caller == Some(body.userId)
    ensures var f := Favorite(body.postId, body.userId);
            var after := multiset(AddOrRemove(favs, caller, body, false).store);
            && (body.isAddFavorite ==> after == multiset(favs) + multiset{f})
            && (!body.isAddFavorite ==> after == multiset(favs) - multiset{f})
            && (!body.isAddFavorite && f !in favs ==> AddOrRemove(favs, caller, body, false).store == favs)
  {
  }

  /** Adding and then removing the same pair gives back the same records, counted with multiplicity. */
  lemma AddThenRemove(favs: seq<Favorite>, postId: PostId, userId: UserId)
    ensures var added := AddOrRemove(favs, Some(userId), FavoriteBody(postId, userId, true), false).store;
            var removed := AddOrRemove(added, Some(userId), FavoriteBody(postId, userId, false), false).store;
            multiset(removed) == multiset(favs)
  {
  }

  /** Whether one of `userId`'s records points at post `id`. */
  predicate FavoredBy(favs: seq<Favorite>, userId: UserId, id: PostId) {
    exists f :: f in favs && f.user == userId && f.post == id
  }

  /** `Posts.find({ _id: { $in: ids } })`: every stored post whose `_id` is one of the user's favorites, in stored order, once each. */
  function FavoritePosts(favs: seq<Favorite>, posts: seq<Post>, userId: UserId): (r: seq<Post>)
    ensures forall p :: p in r <==> p in posts && FavoredBy(favs, userId, p.id)
  {
    var ids := set f | f in favs && f.user == userId :: f.post;
    Filter(posts, (p: Post) => p.id in ids)
  }

  function MarkFavorite(posts: seq<Post>): (r: seq<FavoritePost>)
    ensures |r| == |posts|
    ensures forall i :: 0 <= i < |posts| ==> r[i] == FavoritePost(posts[i], true)
  {
    seq(|posts|, i requires 0 <= i < |posts| => FavoritePost(posts[i], true))
  }

  /** `getFavoritePosts`: 403 unless the path `userId` is the caller; `storeFails` a failing query. Nothing is written. */
  function GetFavoritePosts(favs: seq<Favorite>, posts: seq<Post>, caller: Option<UserId>, userId: UserId,
                            storeFails: bool): (r: FavoriteReply)
    ensures r == NotAllowed <==> caller != Some(userId)
    ensures r == NetworkError <==> caller == Some(userId) && storeFails
    ensures r.Favorites? <==> caller == Some(userId) && !storeFails
    ensures r.Favorites? ==>
              && (forall i :: 0 <= i < |r.data| ==>
                    r.data[i].isFavorite && r.data[i].post in posts && FavoredBy(favs, userId, r.data[i].post.id))
              && (forall p :: p in posts && FavoredBy(favs, userId, p.id) ==> exists i :: 0 <= i < |r.data| && r.data[i].post == p)
  {
    if caller != Some(userId) then NotAllowed
    else if storeFails then NetworkError
    else
      var found := FavoritePosts(favs, posts, userId);
      assert forall p :: p in found ==> exists i :: 0 <= i < |found| && found[i] == p;
      Favorites(MarkFavorite(found))
  }

  /** Each favorite post appears once, even when the user favorited it twice. */
  lemma FavoritePostsOnce(favs: seq<Favorite>, posts: seq<Post>, userId: UserId)
    requires PostsWellFormed(posts)
    ensures var r := GetFavoritePosts(favs, posts, Some(userId), userId, false);
            r.Favorites? && forall i, j :: 0 <= i < j < |r.data| ==> r.data[i].post.id != r.data[j].post.id
  {
    var ids := set f | f in favs && f.user == userId :: f.post;
    FilterUnique(posts, (p: Post) => p.id in ids, PostIdOf);
  }
}

=== FILE: gates.dfy ===
/**
 * The request gates in front of the handlers: `verifyToken` and `isLocked`
 * (middlewares/verifyUser.ts), `isAdmin` (middlewares/authMiddleware.ts), and the chain the
 * routers build from them, which stops at the first gate that does not call `next()`.
 */
module Gates {
  import opened Wrappers
  import opened UserModel
  import opened Tokens

  /** What a gate sees of the request: the `x-token` header and the user set by an earlier gate. */
  datatype Request = Request(header: Option<RawToken>, user: Option<Claims>)

  /**
   * The stores and configuration a gate consults. `lookupFails` stands for a store failure in
   * the gates' `Users.findById`: the awaited lookup is outside any `try`, so the gate's promise
   * rejects and it neither answers nor calls `next()`.
   */
  datatype Context = Context(env: Secrets, now: nat, users: seq<User>, lookupFails: bool)

  /** The responses a gate can send. */
  datatype Rejection = TokenExpired | TokenInvalid | AccountLocked | NoPermission

  /** HTTP status on the wire: the token and lock gates always answer 200. */
  function HttpStatus(r: Rejection): nat {
    match r
    case TokenExpired => 200
    case TokenInvalid => 200
    case AccountLocked => 200
    case NoPermission => 401
  }

  /** The `code` field of the body, where the token and lock gates put the real status. */
  function BodyCode(r: Rejection): Option<nat> {
    match r
    case TokenExpired => Some(401)
    case TokenInvalid => Some(500)
    case AccountLocked => Some(403)
    case NoPermission => None
  }

  /** The `message` field; an invalid token's message is the library's error object itself. */
  function Message(r: Rejection): Option<string> {
    match r
    case TokenExpired => Some("Error.Token.Expired")
    case TokenInvalid => None
    case AccountLocked => Some("Error.Account.Locked.Expired")
    case NoPermission => Some("Error.Not.Have.Permission")
  }

  /** A gate calls `next()` with the (possibly updated) request, sends a response, or does neither. */
  datatype GateResult = Next(req: Request) | Stop(reply: Rejection) | Stall

  /** Whether a header value is truthy: an empty header counts as absent. */
  predicate HeaderPresent(h: Option<RawToken>) {
    h.Some? && h.value != Malformed("")
  }

  /** `verifyToken`. */
  function VerifyToken(ctx: Context, req: Request): (r: GateResult)
    ensures !HeaderPresent(req.header) <==> r.Stall?
    ensures r.Next? <==> HeaderPresent(req.header) && Verify(req.header.value, ctx.env.jwtSecret, ctx.now).Valid?
    ensures r.Next? ==> r.req == req.(user := Some(Verify(req.header.value, ctx.env.jwtSecret, ctx.now).claims))
    ensures r == Stop(TokenExpired) <==> HeaderPresent(req.header) && Verify(req.header.value, ctx.env.jwtSecret, ctx.now).Expired?
    ensures r == Stop(TokenInvalid) <==> HeaderPresent(req.header) && Verify(req.header.value, ctx.env.jwtSecret, ctx.now).Invalid?
  {
    if !HeaderPresent(req.header) then Stall
    else
      match Verify(req.header.value, ctx.env.jwtSecret, ctx.now)
      case Valid(claims) => Next(req.(user := Some(claims)))
      case Expired => Stop(TokenExpired)
      case Invalid => Stop(TokenInvalid)
  }

  /** The user record a gate looks up: `Users.findById(req.user?.id)`; no user on the request finds nothing. */
  function CurrentUser(ctx: Context, req: Request): Option<User> {
    if req.user.None? then None else FindById(ctx.users, req.user.value.id)
  }

  /** `isLocked`: stops exactly when the user exists and is locked; a missing user passes. */
  function IsLocked(ctx: Context, req: Request): (r: GateResult)
    ensures r.Stall? <==> ctx.lookupFails
    ensures r.Stop? <==>
              !ctx.lookupFails && CurrentUser(ctx, req).Some? && StatusName(CurrentUser(ctx, req).value.status) == "locked"
    ensures r.Stop? ==> r.reply == AccountLocked
    ensures r.Next? ==> r.req == req
  {
    if ctx.lookupFails then Stall
    else
      var u := CurrentUser(ctx, req);
      if u.Some? && u.value.status == Locked then Stop(AccountLocked) else Next(req)
  }

  /** `isAdmin`: passes only a user that exists and has the role "admin". */
  function IsAdmin(ctx: Context, req: Request): (r: GateResult)
    ensures r.Stall? <==> ctx.lookupFails
    ensures r.Next? <==>
              !ctx.lookupFails && CurrentUser(ctx, req).Some? && RoleName(CurrentUser(ctx, req).value.role) == "admin"
    ensures r.Next? ==> r.req == req
    ensures r.Stop? ==> r.reply == NoPermission && HttpStatus(r.reply) == 401
  {
    if ctx.lookupFails then Stall
    else
      var u := CurrentUser(ctx, req);
      if u.Some? && u.value.role == Admin then Next(req) else Stop(NoPermission)
  }

  /** `isAdmin` looks at the role only: changing any user's status never changes its decision. */
  lemma {:induction false} IsAdminIgnoresStatus(ctx: Context, req: Request, id: UserId, s: Status)
    ensures IsAdmin(ctx.(users := WithStatus(ctx.users, id, s)), req) == IsAdmin(ctx, req)
  {
    if req.user.Some? {
      FindByIdIgnoresStatus(ctx.users, req.user.value.id, id, s);
    }
  }

  /** The gates the routers put in front of handlers. */
  datatype Gate = VerifyTokenGate | IsLockedGate | IsAdminGate

  function RunGate(g: Gate, ctx: Context, req: Request): GateResult {
    match g
    case VerifyTokenGate => VerifyToken(ctx, req)
    case IsLockedGate => IsLocked(ctx, req)
    case IsAdminGate => IsAdmin(ctx, req)
  }

  /** Express runs the gates in order; the first one that does not call `next()` ends the request. */
  function Pipeline(gates: seq<Gate>, ctx: Context, req: Request): GateResult
    decreases |gates|
  {
    if |gates| == 0 then Next(req)
    else
      match RunGate(gates[0], ctx, req)
      case Next(req') => Pipeline(gates[1..], ctx, req')
      case other => other
  }

  /** Chaining two gate lists: the second list runs only when the first one lets the request through. */
  lemma {:induction false} PipelineAppend(gs: seq<Gate>, hs: seq<Gate>, ctx: Context, req: Request)
    ensures Pipeline(gs + hs, ctx, req) ==
            match Pipeline(gs, ctx, req)
            case Next(req') => Pipeline(hs, ctx, req')
            case other => other
    decreases |gs|
  {
    if |gs| == 0 {
      assert gs + hs == hs;
    } else {
      assert (gs + hs)[0] == gs[0] && (gs + hs)[1..] == gs[1..] + hs;
      match RunGate(gs[0], ctx, req)
      case Next(req') => PipelineAppend(gs[1..], hs, ctx, req');
      case _ =>
    }
  }

  /** `verifyToken, isLocked` — the chain in front of every signed-in user's route. */
  const SignedInRoute: seq<Gate> := [VerifyTokenGate, IsLockedGate]

  /** `verifyToken, isLocked, isAdmin` — the chain in front of the admin routes. */
  const AdminRoute: seq<Gate> := [VerifyTokenGate, IsLockedGate, IsAdminGate]

  /** The user a valid token names, when there is one. */
  function TokenUser(ctx: Context, req: Request): Option<User>
    requires HeaderPresent(req.header) && Verify(req.header.value, ctx.env.jwtSecret, ctx.now).Valid?
  {
    FindById(ctx.users, Verify(req.header.value, ctx.env.jwtSecret, ctx.now).claims.id)
  }

  /**
   * A signed-in route reaches its handler exactly when the token is valid, the lookup answers
   * and its user is not locked, and the handler then sees the token's claims as the request
   * user. The request gets no response at all when the header is missing or the lookup fails
   * behind a valid token.
   */
  lemma SignedInRouteReached(ctx: Context, req: Request)
    ensures Pipeline(SignedInRoute, ctx, req).Next? <==>
            && HeaderPresent(req.header)
            && Verify(req.header.value, ctx.env.jwtSecret, ctx.now).Valid?
            && !ctx.lookupFails
            && !(TokenUser(ctx, req).Some? && TokenUser(ctx, req).value.status == Locked)
    ensures Pipeline(SignedInRoute, ctx, req).Stall? <==>
            || !HeaderPresent(req.header)
            || (Verify(req.header.value, ctx.env.jwtSecret, ctx.now).Valid? && ctx.lookupFails)
    ensures Pipeline(SignedInRoute, ctx, req).Next? ==>
            Pipeline(SignedInRoute, ctx, req).req.user == Some(Verify(req.header.value, ctx.env.jwtSecret, ctx.now).claims)
  {
    assert SignedInRoute[1..] == [IsLockedGate];
    assert SignedInRoute[1..][1..] == [];
  }

  /**
   * An admin route reaches its handler exactly when the token is valid, the lookups answer and
   * the token names an existing, unlocked user whose role is "admin".
   */
  lemma AdminRouteReached(ctx: Context, req: Request)
    ensures Pipeline(AdminRoute, ctx, req).Next? <==>
            && HeaderPresent(req.header)
            && Verify(req.header.value, ctx.env.jwtSecret, ctx.now).Valid?
            && !ctx.lookupFails
            && TokenUser(ctx, req).Some?
            && TokenUser(ctx, req).value.status == Active
            && TokenUser(ctx, req).value.role == Admin
  {
    assert AdminRoute == SignedInRoute + [IsAdminGate];
    PipelineAppend(SignedInRoute, [IsAdminGate], ctx, req);
    SignedInRouteReached(ctx, req);
    assert [IsAdminGate][1..] == [];
  }

  /** A request without a token header never gets past the first gate, and gets no response either. */
  lemma NoHeaderStalls(gates: seq<Gate>, ctx: Context, req: Request)
    requires |gates| > 0 && gates[0] == VerifyTokenGate
    requires !HeaderPresent(req.header)
    ensures Pipeline(gates, ctx, req) == Stall
  {
  }
}

=== FILE: js_text.dfy ===
/**
 * The few pieces of JavaScript string semantics the handlers rely on: truthiness of an
 * optional field, `.length` in UTF-16 code units, the ASCII character classes of the
 * regular expressions, and `String.prototype.split` / `Array.prototype.join` with a
 * non-empty separator.
 */
module JsText {
  import opened Wrappers

  /** `if (x)` on an optional string field: an absent field and "" are both falsy. */
  predicate Truthy(x: Option<string>) {
    x.Some? && x.value != ""
  }

  /** Number of UTF-16 code units JavaScript uses for one character. */
  function Utf16Units(c: char): nat {
    if c as int < 0x1_0000 then 1 else 2
  }

  /** JavaScript's `s.length`: characters outside the Basic Multilingual Plane count twice. */
  function Utf16Length(s: string): (n: nat)
    ensures |s| <= n <= 2 * |s|
    ensures n == |s| <==> forall i :: 0 <= i < |s| ==> s[i] as int < 0x1_0000
  {
    if |s| == 0 then 0
    else
      var n := Utf16Units(s[0]) + Utf16Length(s[1..]);
      assert forall i :: 1 <= i < |s| ==> s[i] == s[1..][i - 1];
      n
  }

  predicate IsUpper(c: char) { 'A' <= c <= 'Z' }
  predicate IsLower(c: char) { 'a' <= c <= 'z' }
  /** `\d` in a regular expression without the `u` flag: ASCII digits only. */
  predicate IsDigit(c: char) { '0' <= c <= '9' }
  predicate IsAlnum(c: char) { IsUpper(c) || IsLower(c) || IsDigit(c) }
  predicate IsAscii(c: char) { c as int < 0x80 }

  /** `/^[a-zA-Z0-9]+$/.test(s)`. */
  predicate AlnumOnly(s: string) {
    |s| > 0 && forall i :: 0 <= i < |s| ==> IsAlnum(s[i])
  }

  /** `/^0\d{9}$/.test(s)`: a zero followed by exactly nine digits and nothing else. */
  predicate PhoneShape(s: string) {
    |s| == 10 && s[0] == '0' && forall i :: 1 <= i < 10 ==> IsDigit(s[i])
  }

  /** `parts.join(sep)`. */
  function Join(parts: seq<string>, sep: string): string
    requires |parts| > 0
  {
    if |parts| == 1 then parts[0] else parts[0] + sep + Join(parts[1..], sep)
  }

  /** Prepending a character to the first piece prepends it to the joined text. */
  lemma JoinExtendsFirst(c: char, parts: seq<string>, sep: string)
    requires |parts| > 0
    ensures Join([[c] + parts[0]] + parts[1..], sep) == [c] + Join(parts, sep)
  {
    var ext := [[c] + parts[0]] + parts[1..];
    if |parts| > 1 {
      assert ext[1..] == parts[1..];
    }
  }

  /**
   * `s.split(sep)` for a non-empty separator: occurrences are found left to right without
   * overlap, and the empty string splits into one empty piece.
   */
  function Split(s: string, sep: string): (parts: seq<string>)
    requires |sep| > 0
    ensures |parts| > 0
    decreases |s|
  {
    if |s| < |sep| then [s]
    else if s[..|sep|] == sep then [""] + Split(s[|sep|..], sep)
    else
      var rest := Split(s[1..], sep);
      [[s[0]] + rest[0]] + rest[1..]
  }

  /** Splitting and joining again with the same separator gives back the original text. */
  lemma {:induction false} SplitThenJoin(s: string, sep: string)
    requires |sep| > 0
    ensures Join(Split(s, sep), sep) == s
    decreases |s|
  {
    if |s| < |sep| {
    } else if s[..|sep|] == sep {
      var rest := Split(s[|sep|..], sep);
      SplitThenJoin(s[|sep|..], sep);
      assert ([""] + rest)[1..] == rest;
      calc {
        Join([""] + rest, sep);
        "" + sep + Join(rest, sep);
        sep + s[|sep|..];
        s[..|sep|] + s[|sep|..];
        s;
      }
    } else {
      var rest := Split(s[1..], sep);
      SplitThenJoin(s[1..], sep);
      assert Split(s, sep) == [[s[0]] + rest[0]] + rest[1..];
      JoinExtendsFirst(s[0], rest, sep);
      assert [s[0]] + s[1..] == s;
    }
  }
}

=== FILE: legacy_post_controller.dfy ===
/**
 * The older compiled post controller: `createNewPost` with its duplicate-title lookup, the
 * `getAllPosts` query builder, the owner routes `userDeletePost` / `userUpdatePost`, and the
 * admin routes `adminUpdateStatusPost`, `adminSingleDeletePost` and `adminMultipleDeletePosts`.
 */
module LegacyPostController {
  import opened Wrappers
  import opened Collections
  import opened JsText
  import opened Http
  import opened Slug
  import opened UserModel
  import opened PostModel
  import opened PostController
  import opened UsersController

  // ---------------------------------------------------------------- createNewPost

  /**
   * The older `createNewPost`. Store call 0 is `findOne({ title })`, made outside the `try`;
   * call 1 is `save()`; call 2 re-reads the saved post to populate its author.
   */
  function CreatePostLegacy(posts: seq<Post>, caller: Option<UserId>, body: PostBody, newId: PostId, outage: Outage)
    : (out: Step<CreateReply, seq<Post>>)
    ensures out.reply == MissingFields <==> !HasPostFields(body)
    ensures out.reply == NoReply <==> HasPostFields(body) && !Completes(outage, 0)
    ensures out.reply == TitleExists <==> HasPostFields(body) && Completes(outage, 0) && TitleTaken(posts, body.title.value)
    ensures out.reply.Created? <==>
              && HasPostFields(body) && Completes(outage, 2) && !TitleTaken(posts, body.title.value)
              && SavePost(posts, NewPost(body, caller, newId)).Some?
    ensures out.reply.Created? ==> out.reply.post == NewPost(body, caller, newId)
    ensures out.store != posts ==>
              HasPostFields(body) && Completes(outage, 1) && out.store == posts + [NewPost(body, caller, newId)]
    ensures out.reply.Created? || out.reply == CreateFailed ==> !TitleTaken(posts, body.title.value)
    ensures PostsWellFormed(posts) ==> PostsWellFormed(out.store)
  {
    if !HasPostFields(body) then Step(MissingFields, posts)
    else if !Completes(outage, 0) then Step(NoReply, posts)
    else if TitleTaken(posts, body.title.value) then Step(TitleExists, posts)
    else
      var p := NewPost(body, caller, newId);
      var saved := SavePost(posts, p);
      SavePostWellFormed(posts, p);
      if !Completes(outage, 1) || saved.None? then Step(CreateFailed, posts)
      else if !Completes(outage, 2) then Step(CreateFailed, saved.value)
      else Step(Created(p), saved.value)
  }

  /** A title already in the store is refused with 400 before anything is saved. */
  lemma LegacyDuplicateTitle(posts: seq<Post>, caller: Option<UserId>, body: PostBody, newId: PostId)
    requires HasPostFields(body) && TitleTaken(posts, body.title.value)
    ensures CreatePostLegacy(posts, caller, body, newId, Healthy) == Step(TitleExists, posts)
    ensures CreateStatus(TitleExists) == Some(400)
  {
  }

  /** Where the title is new and no store call fails, both versions create the same post. */
  lemma LegacyAgreesOnNewTitles(posts: seq<Post>, caller: Option<UserId>, body: PostBody, newId: PostId)
    requires HasPostFields(body) ==> !TitleTaken(posts, body.title.value)
    ensures CreatePostLegacy(posts, caller, body, newId, Healthy) == CreatePost(posts, caller, body, newId, false)
  {
  }

  // ---------------------------------------------------------------- getAllPosts

  /** What `getAllPosts` reads from the body; every field may be absent. */
  datatype PostListRequest = PostListRequest(
    page: Parsed,
    limit: Parsed,
    sortType: Option<string>,
    sortField: Option<string>,
    filterField: Option<string>,
    filterValue: Option<string>,
    searchText: Option<string>)

  datatype PostQuery = PostQuery(filter: map<string, Condition>, sort: map<string, SortDirection>, skip: int, limit: int)

  /** The query `getAllPosts` hands to `Posts.find(filter).skip(skip).limit(limit).sort(sort)`. */
  function PostListQuery(req: PostListRequest): (q: PostQuery)
    ensures var page := OrDefault(req.page, 1);
            var limit := OrDefault(req.limit, 9);
            q.skip == (page - 1) * limit && q.limit == limit
    ensures var field := if Truthy(req.sortField) then req.sortField.value else "createdAt";
            q.sort.Keys == {field} && q.sort[field] == DirectionOf(req.sortType)
    ensures forall k :: k in q.filter <==>
              (Truthy(req.filterField) && Truthy(req.filterValue) && k == req.filterField.value)
              || (Truthy(req.searchText) && k == "title")
    ensures Truthy(req.searchText) ==> q.filter["title"] == Regex(req.searchText.value, "i")
    ensures Truthy(req.filterField) && Truthy(req.filterValue) && !(Truthy(req.searchText) && req.filterField.value == "title")
            ==> q.filter[req.filterField.value] == Equals(req.filterValue)
  {
    var page := OrDefault(req.page, 1);
    var limit := OrDefault(req.limit, 9);
    var field := if Truthy(req.sortField) then req.sortField.value else "createdAt";
    var pairs: map<string, Condition> :=
      if Truthy(req.filterField) && Truthy(req.filterValue) then map[req.filterField.value := Equals(req.filterValue)] else map[];
    var filter := if Truthy(req.searchText) then pairs["title" := Regex(req.searchText.value, "i")] else pairs;
    PostQuery(filter, map[field := DirectionOf(req.sortType)], (page - 1) * limit, limit)
  }

  /** An empty request lists the first nine posts, newest `createdAt` first, unfiltered. */
  lemma PostListDefaults()
    ensures PostListQuery(PostListRequest(NaN, NaN, None, None, None, None, None))
            == PostQuery(map[], map["createdAt" := Desc], 0, 9)
  {
  }

  /** Consecutive pages of the same request tile the results: page n + 1 starts where page n ends. */
  lemma PostPagesTile(req: PostListRequest, n: int)
    requires n >= 1
    ensures var cur := PostListQuery(req.(page := Num(n)));
            var next := PostListQuery(req.(page := Num(n + 1)));
            && next.skip == cur.skip + cur.limit
            && next.limit == cur.limit && next.filter == cur.filter && next.sort == cur.sort
    ensures PostListQuery(req.(page := Num(1))).skip == 0
    ensures PostListQuery(req.(page := NaN)) == PostListQuery(req.(page := Num(1)))
  {
  }

  /** A search text replaces a filter on `title`: the query is the one built without that filter. */
  lemma SearchOverridesTitleFilter(req: PostListRequest)
    requires Truthy(req.searchText) && req.filterField == Some("title")
    ensures PostListQuery(req) == PostListQuery(req.(filterField := None, filterValue := None))
  {
  }

  // ---------------------------------------------------------------- owner routes

  /** Replies of the owner and admin routes. */
  datatype PostReply =
    | PostForbidden              // 403
    | StatusRequired             // 400 "Status is required"
    | AuthorPosts(posts: seq<Post>) // 200, `userDeletePost`: the caller's remaining posts
    | PostUpdated(post: Post)    // 200, `userUpdatePost`
    | PostDone                   // 200, the admin routes
    | PostFailed                 // 500

  function PostReplyStatus(r: PostReply): nat {
    match r
    case PostForbidden => 403
    case StatusRequired => 400
    case PostFailed => 500
    case _ => 200
  }

  function WithId(id: PostId): Post -> bool {
    (p: Post) => p.id == id
  }

  /**
   * `userDeletePost` as written. The guard compares the caller with the path `userId` only;
   * call 0 deletes the post with `postId` whoever wrote it, call 1 lists the caller's posts.
   */
  function UserDeletePost(posts: seq<Post>, caller: Option<UserId>, userId: UserId, postId: PostId, outage: Outage)
    : (out: Step<PostReply, seq<Post>>)
    ensures out.reply == PostForbidden <==> caller != Some(userId)
    ensures out.reply == PostFailed <==> caller == Some(userId) && !Completes(outage, 1)
    ensures out.reply.AuthorPosts? <==> caller == Some(userId) && Completes(outage, 1)
    ensures caller == Some(userId) && Completes(outage, 0) ==> forall p :: p in out.store <==> p in posts && p.id != postId
    ensures !(caller == Some(userId) && Completes(outage, 0)) ==> out.store == posts
    ensures out.reply.AuthorPosts? ==> forall p :: p in out.reply.posts <==> p in out.store && p.author == userId
  {
    if caller != Some(userId) then Step(PostForbidden, posts)
    else if !Completes(outage, 0) then Step(PostFailed, posts)
    else
      var left := RemovePosts(posts, WithId(postId));
      if !Completes(outage, 1) then Step(PostFailed, left)
      else Step(AuthorPosts(Filter(left, AuthoredBy(userId))), left)
  }

  /** A signed-in user who names themself in the path deletes a post someone else wrote. */
  lemma AnyoneCanDeleteAnyPost(p: Post, intruder: UserId)
    requires p.author != intruder
    ensures UserDeletePost([p], Some(intruder), intruder, p.id, Healthy).store == []
  {
    var left := UserDeletePost([p], Some(intruder), intruder, p.id, Healthy).store;
    assert forall q :: q !in left;
  }

  /** Whether the caller wrote the stored post with `_id` `postId`. */
  predicate OwnsPost(posts: seq<Post>, caller: Option<UserId>, postId: PostId) {
    caller.Some? && exists p :: p in posts && p.id == postId && p.author == caller.value
  }

  /** `userDeletePost` with the guard the 403 message promises: the caller must be the stored post's author. */
  function UserDeleteOwnPost(posts: seq<Post>, caller: Option<UserId>, userId: UserId, postId: PostId, outage: Outage)
    : (out: Step<PostReply, seq<Post>>)
    ensures out.reply == PostForbidden <==> caller != Some(userId) || !OwnsPost(posts, caller, postId)
    ensures out.store != posts ==> OwnsPost(posts, caller, postId)
    ensures forall p :: p in out.store <==> p in posts && (p.id != postId || out.store == posts)
  {
    if caller != Some(userId) || !OwnsPost(posts, caller, postId) then Step(PostForbidden, posts)
    else UserDeletePost(posts, caller, userId, postId, outage)
  }

  /** With post ids unique, a caller who did not write a stored post does not own its id. */
  lemma NotOwnerOfOthers(posts: seq<Post>, caller: Option<UserId>, p: Post)
    requires UniqueBy(posts, PostIdOf)
    requires p in posts && Some(p.author) != caller
    ensures !OwnsPost(posts, caller, p.id)
  {
    if caller.Some? {
      forall q | q in posts && q.id == p.id ensures q == p {
        var i :| 0 <= i < |posts| && posts[i] == p;
        var j :| 0 <= j < |posts| && posts[j] == q;
        assert PostIdOf(posts[i]) == PostIdOf(posts[j]);
      }
    }
  }

  /** With the guard on the stored post, another user's post survives every delete request. */
  lemma OthersPostsSurvive(posts: seq<Post>, caller: Option<UserId>, userId: UserId, postId: PostId, outage: Outage)
    requires UniqueBy(posts, PostIdOf)
    ensures forall p :: p in posts && p.id == postId && Some(p.author) != caller ==>
              UserDeleteOwnPost(posts, caller, userId, postId, outage).store == posts
  {
    forall p | p in posts && p.id == postId && Some(p.author) != caller
      ensures !OwnsPost(posts, caller, postId)
    {
      NotOwnerOfOthers(posts, caller, p);
    }
  }

  /** The body of `userUpdatePost`. */
  datatype PostEdit = PostEdit(title: Option<string>, content: Option<string>, category: Option<string>, thumbnail: Option<string>)

  /** The post after `$set: { title, content, category, thumbnail, slug: getSlug(title) }`; absent fields keep their value. */
  function ApplyEdit(p: Post, title: string, edit: PostEdit): (q: Post)
    ensures q.id == p.id && q.author == p.author && q.status == p.status
    ensures q.title == title && q.slug == GetSlug(title)
    ensures q.content == edit.content.GetOr(p.content) && q.category == edit.category.GetOr(p.category)
    ensures q.thumbnail == edit.thumbnail.GetOr(p.thumbnail)
  {
    p.(title := title, slug := GetSlug(title), content := edit.content.GetOr(p.content),
       category := edit.category.GetOr(p.category), thumbnail := edit.thumbnail.GetOr(p.thumbnail))
  }

  /**
   * `userUpdatePost` as written. A missing title makes `getSlug(undefined)` throw before the
   * update; a missing post makes `updatedPost._id` throw after it. Call 0 is the update, call 1
   * the re-read that populates the author.
   */
  function UserUpdatePost(posts: seq<Post>, caller: Option<UserId>, userId: UserId, postId: PostId, edit: PostEdit,
                          outage: Outage): (out: Step<PostReply, seq<Post>>)
    ensures out.reply == PostForbidden <==> caller != Some(userId)
    ensures out.reply == PostFailed <==> caller == Some(userId) && !out.reply.PostUpdated?
    ensures out.reply.PostUpdated? <==>
              && caller == Some(userId) && edit.title.Some? && Completes(outage, 1)
              && FindPost(posts, postId).Some?
              && !Clashes(posts, postId, ApplyEdit(FindPost(posts, postId).value, edit.title.value, edit))
    ensures out.reply.PostUpdated? ==>
              && out.reply.post == ApplyEdit(FindPost(posts, postId).value, edit.title.value, edit)
              && out.reply.post.slug == GetSlug(edit.title.value)
              && out.store == ReplacePost(posts, postId, out.reply.post).value
    ensures out.store != posts ==> caller == Some(userId) && edit.title.Some? && Completes(outage, 0)
    ensures PostsWellFormed(posts) ==> PostsWellFormed(out.store)
  {
    if caller != Some(userId) then Step(PostForbidden, posts)
    else if edit.title.None? || !Completes(outage, 0) then Step(PostFailed, posts)
    else
      var found := FindPost(posts, postId);
      if found.None? then Step(PostFailed, posts)
      else
        var q := ApplyEdit(found.value, edit.title.value, edit);
        var replaced := ReplacePost(posts, postId, q);
        if replaced.None? then Step(PostFailed, posts)
        else
          assert PostsWellFormed(posts) ==> PostsWellFormed(replaced.value) by {
            if PostsWellFormed(posts) {
              ReplacePostWellFormed(posts, postId, q);
            }
          }
          if !Completes(outage, 1) then Step(PostFailed, replaced.value)
          else Step(PostUpdated(q), replaced.value)
  }

  /** A signed-in user who names themself in the path rewrites a post someone else wrote; the author stays the same. */
  lemma AnyoneCanEditAnyPost(p: Post, intruder: UserId, title: string)
    requires p.author != intruder
    ensures var edit := PostEdit(Some(title), None, None, None);
            var out := UserUpdatePost([p], Some(intruder), intruder, p.id, edit, Healthy);
            && out.reply == PostUpdated(ApplyEdit(p, title, edit))
            && out.store == [ApplyEdit(p, title, edit)]
            && out.store[0].author == p.author
  {
    var edit := PostEdit(Some(title), None, None, None);
    assert FindPost([p], p.id) == Some(p);
    assert !Clashes([p], p.id, ApplyEdit(p, title, edit));
    assert ReplacePost([p], p.id, ApplyEdit(p, title, edit)).value == [ApplyEdit(p, title, edit)];
  }

  /** `userUpdatePost` with the guard the 403 message promises: the caller must be the stored post's author. */
  function UserUpdateOwnPost(posts: seq<Post>, caller: Option<UserId>, userId: UserId, postId: PostId, edit: PostEdit,
                             outage: Outage): (out: Step<PostReply, seq<Post>>)
    ensures out.reply == PostForbidden <==> caller != Some(userId) || !OwnsPost(posts, caller, postId)
    ensures out.store != posts ==> OwnsPost(posts, caller, postId)
    ensures out.reply.PostUpdated? ==> out.reply.post.id == postId
    ensures UniqueBy(posts, PostIdOf) && out.reply.PostUpdated? ==> Some(out.reply.post.author) == caller
    ensures PostsWellFormed(posts) ==> PostsWellFormed(out.store)
  {
    if caller != Some(userId) || !OwnsPost(posts, caller, postId) then Step(PostForbidden, posts)
    else
      var out := UserUpdatePost(posts, caller, userId, postId, edit, outage);
      assert UniqueBy(posts, PostIdOf) && out.reply.PostUpdated? ==> Some(out.reply.post.author) == caller by {
        if UniqueBy(posts, PostIdOf) && out.reply.PostUpdated? {
          var p :| p in posts && p.id == postId && p.author == caller.value;
          var found := FindPost(posts, postId).value;
          var i :| 0 <= i < |posts| && posts[i] == p;
          var j :| 0 <= j < |posts| && posts[j] == found;
          assert PostIdOf(posts[i]) == PostIdOf(posts[j]);
        }
      }
      out
  }

  /** With the guard on the stored post, another user's post is never rewritten. */
  lemma OthersPostsUnedited(posts: seq<Post>, caller: Option<UserId>, userId: UserId, postId: PostId, edit: PostEdit,
                            outage: Outage)
    requires UniqueBy(posts, PostIdOf)
    ensures forall p :: p in posts && p.id == postId && Some(p.author) != caller ==>
              UserUpdateOwnPost(posts, caller, userId, postId, edit, outage).store == posts
  {
    forall p | p in posts && p.id == postId && Some(p.author) != caller
      ensures !OwnsPost(posts, caller, postId)
    {
      NotOwnerOfOthers(posts, caller, p);
    }
  }

  // ---------------------------------------------------------------- admin routes

  /** The posts with the status of the one whose `_id` is `id` set to `status`. */
  function WithPostStatus(posts: seq<Post>, id: PostId, status: string): (r: seq<Post>)
    ensures |r| == |posts|
    ensures forall i :: 0 <= i < |posts| ==> r[i] == if posts[i].id == id then posts[i].(status := status) else posts[i]
  {
    seq(|posts|, i requires 0 <= i < |posts| => if posts[i].id == id then posts[i].(status := status) else posts[i])
  }

  /** `adminUpdateStatusPost`: 400 for a falsy status, otherwise `$set: { status }`, with 200 even when no post has that id. */
  function AdminUpdateStatusPost(posts: seq<Post>, postId: PostId, status: Option<string>, storeFails: bool)
    : (out: Step<PostReply, seq<Post>>)
    ensures out.reply == StatusRequired <==> !Truthy(status)
    ensures out.reply == PostDone <==> Truthy(status) && !storeFails
    ensures out.reply == PostDone ==> out.store == WithPostStatus(posts, postId, status.value)
    ensures out.reply != PostDone ==> out.store == posts
    ensures PostsWellFormed(posts) ==> PostsWellFormed(out.store)
  {
    if !Truthy(status) then Step(StatusRequired, posts)
    else if storeFails then Step(PostFailed, posts)
    else
      var r := WithPostStatus(posts, postId, status.value);
      assert PostsWellFormed(posts) ==> PostsWellFormed(r) by {
        if PostsWellFormed(posts) {
          forall i, j | 0 <= i < j < |r| ensures r[i].id != r[j].id && r[i].title != r[j].title && r[i].slug != r[j].slug {
            assert PostIdOf(posts[i]) != PostIdOf(posts[j]) && TitleOf(posts[i]) != TitleOf(posts[j]);
            assert SlugOf(posts[i]) != SlugOf(posts[j]);
          }
        }
      }
      Step(PostDone, r)
  }

  /** No enum validator runs on the update: any non-empty string becomes a post's status. */
  lemma AdminStatusUnchecked(p: Post)
    requires PostValid(p)
    ensures var out := AdminUpdateStatusPost([p], p.id, Some("Archived"), false);
            out.reply == PostDone && !PostValid(out.store[0])
  {
  }

  /** `adminSingleDeletePost`: `findByIdAndDelete(postId)`; 200 whether or not the post existed. */
  function AdminSingleDeletePost(posts: seq<Post>, postId: PostId, storeFails: bool): (out: Step<PostReply, seq<Post>>)
    ensures out.reply == PostDone <==> !storeFails
    ensures forall p :: p in out.store <==> p in posts && (p.id != postId || storeFails)
    ensures PostsWellFormed(posts) ==> PostsWellFormed(out.store)
  {
    RemovePostsWellFormed(posts, WithId(postId));
    if storeFails then Step(PostFailed, posts) else Step(PostDone, RemovePosts(posts, WithId(postId)))
  }

  /** `adminMultipleDeletePosts`: `deleteMany({ _id: { $in: postIds } })`. */
  function AdminMultipleDeletePosts(posts: seq<Post>, postIds: seq<PostId>, storeFails: bool)
    : (out: Step<PostReply, seq<Post>>)
    ensures out.reply == PostDone <==> !storeFails
    ensures forall p :: p in out.store <==> p in posts && (p.id !in postIds || storeFails)
    ensures PostsWellFormed(posts) ==> PostsWellFormed(out.store)
  {
    var listed := (p: Post) => p.id in postIds;
    RemovePostsWellFormed(posts, listed);
    if storeFails then Step(PostFailed, posts) else Step(PostDone, RemovePosts(posts, listed))
  }

  /** Deleting one post by id and deleting the one-element list of it leave the same posts. */
  lemma SingleAndMultipleDeleteAgree(posts: seq<Post>, postId: PostId)
    ensures forall p :: p in AdminSingleDeletePost(posts, postId, false).store
                    <==> p in AdminMultipleDeletePosts(posts, [postId], false).store
  {
  }
}

=== FILE: post_controller.dfy ===
/**
 * `createNewPost` of the current controller: the three required body fields, the slug
 * computed from the title, and the body spread under the computed slug and the caller as
 * author, so neither can be chosen by the client.
 */
module PostController {
  import opened Wrappers
  import opened JsText
  import opened Slug
  import opened UserModel
  import opened PostModel

  /** The body fields a new post can take from the request. */
  datatype PostBody = PostBody(
    title: Option<string>,
    content: Option<string>,
    category: Option<string>,
    thumbnail: Option<string>,
    status: Option<string>,
    slug: Option<string>,
    author: Option<string>)

  /** The three fields both versions of `createNewPost` insist on. */
  predicate HasPostFields(body: PostBody) {
    Truthy(body.title) && Truthy(body.content) && Truthy(body.category)
  }

  /**
   * `new Posts({ ...req.body, slug, author: req.user?.id })`: the body's own `slug` and
   * `author` are overwritten, absent fields take the schema defaults, and a missing caller
   * leaves `author` unset ("" here, which the required validator rejects).
   */
  function NewPost(body: PostBody, caller: Option<UserId>, newId: PostId): (p: Post)
    requires HasPostFields(body)
    ensures p.id == newId && p.title == body.title.value && p.content == body.content.value
    ensures p.category == body.category.value
    ensures p.slug == GetSlug(body.title.value)
    ensures caller.Some? ==> p.author == caller.value
    ensures p.thumbnail == body.thumbnail.GetOr(DefaultThumbnail)
    ensures p.status == body.status.GetOr(DefaultStatus)
  {
    Post(newId, body.title.value, GetSlug(body.title.value), body.category.value,
         body.thumbnail.GetOr(DefaultThumbnail), body.content.value, caller.GetOr(""),
         body.status.GetOr(DefaultStatus))
  }

  /** The outcomes of `createNewPost` in either version. */
  datatype CreateReply =
    | MissingFields      // 400 "Title and content are required"
    | TitleExists        // 400 "This title blog already exists" (older version only)
    | Created(post: Post) // 201
    | CreateFailed       // 500
    | NoReply            // the older version's title lookup throws outside its try: nothing is sent

  function CreateStatus(r: CreateReply): Option<nat> {
    match r
    case MissingFields => Some(400)
    case TitleExists => Some(400)
    case Created(_) => Some(201)
    case CreateFailed => Some(500)
    case NoReply => None
  }

  /** `createNewPost`. `saveFails` is a store failure inside `save()`. */
  function CreatePost(posts: seq<Post>, caller: Option<UserId>, body: PostBody, newId: PostId, saveFails: bool)
    : (out: Step<CreateReply, seq<Post>>)
    ensures out.reply == MissingFields <==> !HasPostFields(body)
    ensures out.reply.Created? <==>
              HasPostFields(body) && !saveFails && SavePost(posts, NewPost(body, caller, newId)).Some?
    ensures out.reply.Created? ==> out.reply.post == NewPost(body, caller, newId) && out.store == posts + [out.reply.post]
    ensures out.reply.Created? ==> PostValid(out.reply.post) && out.reply.post.author == caller.value
    ensures !out.reply.Created? ==> out.store == posts
    ensures out.reply == MissingFields || out.reply == CreateFailed || out.reply.Created?
    ensures PostsWellFormed(posts) ==> PostsWellFormed(out.store)
  {
    if !HasPostFields(body) then Step(MissingFields, posts)
    else
      var p := NewPost(body, caller, newId);
      var saved := SavePost(posts, p);
      SavePostWellFormed(posts, p);
      if saveFails || saved.None? then Step(CreateFailed, posts)
      else Step(Created(p), saved.value)
  }

  /** Whatever `slug` and `author` the body carries, the result is the same. */
  lemma BodySlugAndAuthorIgnored(posts: seq<Post>, caller: Option<UserId>, body: PostBody, slug: Option<string>,
                                 author: Option<string>, newId: PostId, saveFails: bool)
    ensures CreatePost(posts, caller, body.(slug := slug, author := author), newId, saveFails)
            == CreatePost(posts, caller, body, newId, saveFails)
  {
  }

  /** A post created without `status` or `thumbnail` is Pending and has the default thumbnail. */
  lemma CreatedDefaults(posts: seq<Post>, caller: Option<UserId>, body: PostBody, newId: PostId)
    requires body.status.None? && body.thumbnail.None?
    requires CreatePost(posts, caller, body, newId, false).reply.Created?
    ensures var p := CreatePost(posts, caller, body, newId, false).reply.post;
            ParsePostState(p.status) == Some(Pending) && p.thumbnail == DefaultThumbnail
  {
  }

  /**
   * The body is spread into the document, so a client that sends `status: "Published"` skips
   * the Pending state the reply message speaks of.
   */
  lemma ClientChosenStatusKept(posts: seq<Post>, caller: Option<UserId>, body: PostBody, newId: PostId)
    requires body.status == Some("Published")
    requires CreatePost(posts, caller, body, newId, false).reply.Created?
    ensures ParsePostState(CreatePost(posts, caller, body, newId, false).reply.post.status) == Some(Published)
  {
  }

  /** A title (or a slug) already in the store makes the save fail with 500 and nothing is stored. */
  lemma DuplicateTitleFails(posts: seq<Post>, caller: Option<UserId>, body: PostBody, newId: PostId, saveFails: bool)
    requires HasPostFields(body)
    requires TitleTaken(posts, body.title.value) || SlugTaken(posts, GetSlug(body.title.value))
    ensures CreatePost(posts, caller, body, newId, saveFails) == Step(CreateFailed, posts)
  {
  }
}

=== FILE: post_model.dfy ===
/**
 * The post collection: the `PostState` enum, the record with its schema default for the
 * thumbnail and status, the required fields, and the unique indexes on `title` and `slug`.
 */
module PostModel {
  import opened Wrappers
  import opened Collections
  import opened UserModel

  type PostId = string

  datatype PostState = Pending | Published | Deleted

  function PostStateName(s: PostState): string {
    match s
    case Pending => "Pending"
    case Published => "Published"
    case Deleted => "Deleted"
  }

  /** The schema's enum validator for `status`: exactly the three state names are accepted. */
  function ParsePostState(s: string): (r: Option<PostState>)
    ensures r.Some? ==> PostStateName(r.value) == s
    ensures r.None? <==> forall st: PostState :: PostStateName(st) != s
  {
    if s == "Pending" then Some(Pending)
    else if s == "Published" then Some(Published)
    else if s == "Deleted" then Some(Deleted)
    else None
  }

  const DefaultThumbnail: string := "https://img.lovepik.com/free-template/bg/20190702/bg/877531811030a.png_master.jpg"
  const DefaultStatus: string := "Pending"

  /**
   * A stored post. `status` is kept as the stored string: the enum validator runs when a post is
   * created, not when `findByIdAndUpdate` writes it.
   */
  datatype Post = Post(
    id: PostId,
    title: string,
    slug: string,
    category: string,
    thumbnail: string,
    content: string,
    author: UserId,
    status: string)

  function PostIdOf(p: Post): PostId { p.id }
  function TitleOf(p: Post): string { p.title }
  function SlugOf(p: Post): string { p.slug }

  /** What the validators demand of a new document: the required strings are non-empty and the status is a `PostState`. */
  predicate PostValid(p: Post) {
    && p.title != "" && p.slug != "" && p.category != "" && p.content != "" && p.author != ""
    && ParsePostState(p.status).Some?
  }

  predicate PostIdTaken(posts: seq<Post>, id: PostId) {
    exists p :: p in posts && p.id == id
  }

  predicate TitleTaken(posts: seq<Post>, title: string) {
    exists p :: p in posts && p.title == title
  }

  predicate SlugTaken(posts: seq<Post>, slug: string) {
    exists p :: p in posts && p.slug == slug
  }

  /** The invariant the unique indexes keep: no two posts share an `_id`, a title or a slug. */
  ghost predicate PostsWellFormed(posts: seq<Post>) {
    UniqueBy(posts, PostIdOf) && UniqueBy(posts, TitleOf) && UniqueBy(posts, SlugOf)
  }

  /** `new Posts(doc).save()`: rejected by a validator or a unique index, or appended. */
  function SavePost(posts: seq<Post>, p: Post): (r: Option<seq<Post>>)
    ensures r.Some? <==> PostValid(p) && !PostIdTaken(posts, p.id) && !TitleTaken(posts, p.title) && !SlugTaken(posts, p.slug)
    ensures r.Some? ==> r.value == posts + [p]
  {
    if PostValid(p) && !PostIdTaken(posts, p.id) && !TitleTaken(posts, p.title) && !SlugTaken(posts, p.slug) then
      Some(posts + [p])
    else None
  }

  /** A successful save keeps every unique index intact. */
  lemma SavePostWellFormed(posts: seq<Post>, p: Post)
    ensures PostsWellFormed(posts) && SavePost(posts, p).Some? ==> PostsWellFormed(SavePost(posts, p).value)
  {
    if PostsWellFormed(posts) && SavePost(posts, p).Some? {
      assert forall i :: 0 <= i < |posts| ==> posts[i] in posts;
      AppendUnique(posts, p, PostIdOf);
      AppendUnique(posts, p, TitleOf);
      AppendUnique(posts, p, SlugOf);
    }
  }

  /** `Posts.findById(id)`. */
  function FindPost(posts: seq<Post>, id: PostId): (r: Option<Post>)
    ensures r.Some? <==> PostIdTaken(posts, id)
    ensures r.Some? ==> r.value in posts && r.value.id == id
    decreases |posts|
  {
    if |posts| == 0 then None
    else if posts[0].id == id then Some(posts[0])
    else
      var r := FindPost(posts[1..], id);
      assert forall p :: p in posts <==> p == posts[0] || p in posts[1..];
      r
  }

  /** The posts a `deleteMany` (or `findByIdAndDelete`) does not match, in stored order. */
  function RemovePosts(posts: seq<Post>, matches: Post -> bool): (r: seq<Post>)
    ensures forall p :: p in r <==> p in posts && !matches(p)
    ensures |r| <= |posts|
  {
    Filter(posts, (p: Post) => !matches(p))
  }

  lemma RemovePostsWellFormed(posts: seq<Post>, matches: Post -> bool)
    ensures PostsWellFormed(posts) ==> PostsWellFormed(RemovePosts(posts, matches))
  {
    if PostsWellFormed(posts) {
      FilterUnique(posts, (p: Post) => !matches(p), PostIdOf);
      FilterUnique(posts, (p: Post) => !matches(p), TitleOf);
      FilterUnique(posts, (p: Post) => !matches(p), SlugOf);
    }
  }

  /** Whether writing `q` over the post with `_id` `id` would collide with another post's title or slug. */
  predicate Clashes(posts: seq<Post>, id: PostId, q: Post) {
    exists p :: p in posts && p.id != id && (p.title == q.title || p.slug == q.slug)
  }

  /**
   * `findByIdAndUpdate(id, …)` writing `q` over the post with `_id` `id`: the unique indexes
   * reject a title or slug another post holds; every other post is left as it was.
   */
  function ReplacePost(posts: seq<Post>, id: PostId, q: Post): (r: Option<seq<Post>>)
    ensures r.None? <==> Clashes(posts, id, q)
    ensures r.Some? ==> |r.value| == |posts|
    ensures r.Some? ==> forall i :: 0 <= i < |posts| ==> r.value[i] == if posts[i].id == id then q else posts[i]
  {
    if Clashes(posts, id, q) then None
    else Some(seq(|posts|, i requires 0 <= i < |posts| => if posts[i].id == id then q else posts[i]))
  }

  /** Replacing a post by one with the same `_id` keeps every unique index intact. */
  lemma ReplacePostWellFormed(posts: seq<Post>, id: PostId, q: Post)
    requires PostsWellFormed(posts)
    requires q.id == id
    requires ReplacePost(posts, id, q).Some?
    ensures PostsWellFormed(ReplacePost(posts, id, q).value)
  {
    var r := ReplacePost(posts, id, q).value;
    forall i, j | 0 <= i < j < |r|
      ensures r[i].id != r[j].id && r[i].title != r[j].title && r[i].slug != r[j].slug
    {
      assert posts[i] in posts && posts[j] in posts;
      assert posts[i].id != posts[j].id;
    }
  }
}

=== FILE: services.dfy ===
/**
 * Response conventions shared by the handlers, and the collaborators the handlers call but
 * whose internals are outside the model: the email regular expression and bcrypt.
 */
module Http {

  /** `IRequestStatus`, a numeric enum: Error = 0, Success = 1, Info = 2. */
  datatype RequestStatus = Error | Success | Info

  function RequestStatusCode(s: RequestStatus): nat {
    match s
    case Error => 0
    case Success => 1
    case Info => 2
  }

  /**
   * A store that may throw: the handler's store calls are numbered from 0 in the order the
   * handler makes them, and `FailsAt(k)` makes call k throw (and every later call unreached).
   */
  datatype Outage = Healthy | FailsAt(call: nat)

  /** Whether store call `k` completes. */
  predicate Completes(o: Outage, k: nat) {
    o.Healthy? || k < o.call
  }
}

module External {

  /**
   * Injected, uninterpreted collaborators. `isValidEmail` is the email regular expression,
   * `hash` is bcrypt's `hashSync(p, 13)` (for the salt it happened to draw) and `matches`
   * is bcrypt's `compareSync(p, h)`.
   */
  datatype Services = Services(
    isValidEmail: string -> bool,
    hash: string -> string,
    matches: (string, string) -> bool)

  /** The only fact assumed of bcrypt: a password matches its own hash. */
  ghost predicate HashSound(svc: Services) {
    forall p :: svc.matches(p, svc.hash(p))
  }
}

=== FILE: slug.dfy ===
/**
 * `getSlug`: spaces become "-", the text is lower-cased, and every character outside
 * [a-zA-Z0-9-] becomes "-". The regular expression has no `u` flag, so it works on UTF-16
 * code units: a character outside the Basic Multilingual Plane becomes two dashes.
 */
module Slug {
  import opened JsText

  /**
   * `toLowerCase()` of one character, written as the UTF-16 code units it produces. ASCII
   * capitals become small letters. Only two characters outside ASCII lower-case to text that
   * contains ASCII: the Kelvin sign (to "k") and the capital I with dot above (to "i" and a
   * combining dot). A character outside the Basic Multilingual Plane stays two code units
   * outside ASCII; they are written here as the character twice. Any other character lower-cases
   * to one code unit outside ASCII (or to itself), which the last step turns into one dash either way.
   */
  function LowerText(c: char): string {
    if IsUpper(c) then [(c as int + 32) as char]
    else if c == 'K' then "k"
    else if c == 'İ' then "i̇"
    else if c as int >= 0x1_0000 then [c, c]
    else [c]
  }

  /** `.toLowerCase()` on a whole string. */
  function LowerCase(s: string): string {
    if |s| == 0 then [] else LowerText(s[0]) + LowerCase(s[1..])
  }

  /** A character the slug alphabet allows: a small letter, a digit or "-". */
  predicate IsSlugChar(c: char) {
    IsLower(c) || IsDigit(c) || c == '-'
  }

  /** One step of `.replace(/[^a-zA-Z0-9-]/g, "-")`. */
  function KeepOrDash(c: char): char {
    if IsAlnum(c) || c == '-' then c else '-'
  }

  function ReplaceDisallowed(s: string): string {
    seq(|s|, i requires 0 <= i < |s| => KeepOrDash(s[i]))
  }

  function GetSlug(s: string): string {
    ReplaceDisallowed(LowerCase(Join(Split(s, " "), "-")))
  }

  /** Reference definition: the slug text one input character contributes. */
  function SlugText(c: char): string {
    ReplaceDisallowed(LowerText(if c == ' ' then '-' else c))
  }

  function SlugOfEach(s: string): string {
    if |s| == 0 then [] else SlugText(s[0]) + SlugOfEach(s[1..])
  }

  /** `s.split(" ").join("-")` turns each space into a dash and leaves everything else in place. */
  function DashForSpace(s: string): (r: string)
    ensures |r| == |s|
    ensures forall i :: 0 <= i < |s| ==> r[i] == (if s[i] == ' ' then '-' else s[i])
  {
    seq(|s|, i requires 0 <= i < |s| => if s[i] == ' ' then '-' else s[i])
  }

  lemma {:induction false} SplitJoinSpaces(s: string)
    ensures Join(Split(s, " "), "-") == DashForSpace(s)
    decreases |s|
  {
    if |s| == 0 {
    } else if s[..1] == " " {
      var rest := Split(s[1..], " ");
      SplitJoinSpaces(s[1..]);
      assert ([""] + rest)[1..] == rest;
      assert DashForSpace(s) == "-" + DashForSpace(s[1..]);
    } else {
      var rest := Split(s[1..], " ");
      SplitJoinSpaces(s[1..]);
      assert s[0] != ' ' by { assert s[..1] == [s[0]]; }
      JoinExtendsFirst(s[0], rest, "-");
      assert DashForSpace(s) == [s[0]] + DashForSpace(s[1..]);
    }
  }

  lemma LowerCaseAppend(a: string, b: string)
    ensures LowerCase(a + b) == LowerCase(a) + LowerCase(b)
    decreases |a|
  {
    if |a| > 0 {
      assert (a + b)[0] == a[0] && (a + b)[1..] == a[1..] + b;
      LowerCaseAppend(a[1..], b);
      calc {
        LowerCase(a + b);
        LowerText(a[0]) + LowerCase(a[1..] + b);
        LowerText(a[0]) + (LowerCase(a[1..]) + LowerCase(b));
        (LowerText(a[0]) + LowerCase(a[1..])) + LowerCase(b);
      }
    } else {
      assert a + b == b;
    }
  }

  lemma ReplaceAppend(a: string, b: string)
    ensures ReplaceDisallowed(a + b) == ReplaceDisallowed(a) + ReplaceDisallowed(b)
  {
  }

  /** `getSlug` is the concatenation of what each input character contributes. */
  lemma {:induction false} SlugIsPerCharacter(s: string)
    ensures GetSlug(s) == SlugOfEach(s)
  {
    SplitJoinSpaces(s);
    ReplaceLowerDash(s);
  }

  lemma {:induction false} ReplaceLowerDash(s: string)
    ensures ReplaceDisallowed(LowerCase(DashForSpace(s))) == SlugOfEach(s)
    decreases |s|
  {
    if |s| > 0 {
      var c := if s[0] == ' ' then '-' else s[0];
      assert DashForSpace(s) == [c] + DashForSpace(s[1..]);
      LowerCaseAppend([c], DashForSpace(s[1..]));
      assert LowerCase([c]) == LowerText(c);
      ReplaceAppend(LowerText(c), LowerCase(DashForSpace(s[1..])));
      ReplaceLowerDash(s[1..]);
    }
  }

  lemma {:induction false} SlugOfEachAppend(a: string, b: string)
    ensures SlugOfEach(a + b) == SlugOfEach(a) + SlugOfEach(b)
    decreases |a|
  {
    if |a| > 0 {
      assert (a + b)[0] == a[0] && (a + b)[1..] == a[1..] + b;
      SlugOfEachAppend(a[1..], b);
      calc {
        SlugOfEach(a + b);
        SlugText(a[0]) + SlugOfEach(a[1..] + b);
        SlugText(a[0]) + (SlugOfEach(a[1..]) + SlugOfEach(b));
        (SlugText(a[0]) + SlugOfEach(a[1..])) + SlugOfEach(b);
      }
    } else {
      assert a + b == b;
    }
  }

  /** Every character of a slug is a small letter, a digit or "-". */
  lemma {:induction false} SlugCharset(s: string)
    ensures forall i :: 0 <= i < |GetSlug(s)| ==> IsSlugChar(GetSlug(s)[i])
  {
    SlugIsPerCharacter(s);
    SlugOfEachCharset(s);
  }

  lemma {:induction false} SlugOfEachCharset(s: string)
    ensures forall i :: 0 <= i < |SlugOfEach(s)| ==> IsSlugChar(SlugOfEach(s)[i])
    decreases |s|
  {
    if |s| > 0 {
      SlugOfEachCharset(s[1..]);
      var c := if s[0] == ' ' then '-' else s[0];
      assert forall k :: 0 <= k < |LowerText(c)| ==> !IsUpper(LowerText(c)[k]);
    }
  }

  /** What one ASCII character becomes: capitals are lowered; letters, digits and "-" are kept; the rest is "-". */
  function SlugAscii(c: char): (d: char)
    requires IsAscii(c)
    ensures c == ' ' ==> d == '-'
    ensures IsUpper(c) ==> IsLower(d) && d as int == c as int + 32
    ensures IsLower(c) || IsDigit(c) || c == '-' ==> d == c
    ensures !IsAlnum(c) && c != '-' ==> d == '-'
  {
    if IsUpper(c) then (c as int + 32) as char
    else if IsAlnum(c) || c == '-' then c
    else '-'
  }

  /**
   * On ASCII input the slug has the input's length, and its character at position i depends
   * only on the input's character at position i.
   */
  lemma {:induction false} SlugOfAscii(s: string)
    requires forall i :: 0 <= i < |s| ==> IsAscii(s[i])
    ensures |GetSlug(s)| == |s|
    ensures forall i :: 0 <= i < |s| ==> GetSlug(s)[i] == SlugAscii(s[i])
  {
    SlugIsPerCharacter(s);
    SlugOfEachAscii(s);
  }

  lemma {:induction false} SlugOfEachAscii(s: string)
    requires forall i :: 0 <= i < |s| ==> IsAscii(s[i])
    ensures |SlugOfEach(s)| == |s|
    ensures forall i :: 0 <= i < |s| ==> SlugOfEach(s)[i] == SlugAscii(s[i])
    decreases |s|
  {
    if |s| > 0 {
      SlugOfEachAscii(s[1..]);
      assert SlugText(s[0]) == [SlugAscii(s[0])];
      forall i | 1 <= i < |s| ensures SlugOfEach(s)[i] == SlugAscii(s[i]) {
        assert SlugOfEach(s)[i] == SlugOfEach(s[1..])[i - 1];
      }
    }
  }

  /** Every space in the input becomes a "-" at its place, whatever surrounds it. */
  lemma SpaceBecomesDash(a: string, b: string)
    ensures GetSlug(a + " " + b) == GetSlug(a) + "-" + GetSlug(b)
  {
    SlugIsPerCharacter(a + " " + b);
    SlugIsPerCharacter(a);
    SlugIsPerCharacter(b);
    SlugOfEachAppend(a + " ", b);
    SlugOfEachAppend(a, " ");
    assert SlugOfEach(" ") == "-";
  }

  /** A slug is its own slug. */
  lemma SlugIdempotent(s: string)
    ensures GetSlug(GetSlug(s)) == GetSlug(s)
  {
    var t := GetSlug(s);
    SlugCharset(s);
    SlugOfAscii(t);
    assert GetSlug(t) == t;
  }

  /** The slug of a three-character ASCII title, character by character. */
  lemma SlugOfThree(a: char, b: char, c: char)
    requires IsAscii(a) && IsAscii(b) && IsAscii(c)
    ensures GetSlug([a, b, c]) == [SlugAscii(a), SlugAscii(b), SlugAscii(c)]
  {
    SlugOfAscii([a, b, c]);
  }

  /** Different titles can share a slug: "A B", "a-b" and "a_b" all give "a-b". */
  lemma SlugNotInjective()
    ensures GetSlug("A B") == GetSlug("a-b") == GetSlug("a_b") == "a-b"
  {
    SlugOfThree('A', ' ', 'B');
    SlugOfThree('a', '-', 'b');
    SlugOfThree('a', '_', 'b');
  }

  /** A non-empty title has a non-empty slug. */
  lemma SlugNonEmpty(s: string)
    requires s != ""
    ensures GetSlug(s) != ""
  {
    SlugIsPerCharacter(s);
    assert |SlugText(s[0])| > 0;
  }
}

=== FILE: tokens.dfy ===
/**
 * JSON Web Tokens as the middleware uses them: access tokens (signed with `JWT_SECRET`,
 * ten minutes) and refresh tokens (signed with `JWT_REFRESH`, one day) carrying the claims
 * `{ id, name }`. Signatures are not computed: a token records the secret it was signed
 * with, and verification compares secrets, so tokens signed with different secrets never
 * cross-verify.
 */
module Tokens {
  import opened Wrappers
  import opened UserModel

  /** The token payload; the login cookie's token carries only the id. */
  datatype Claims = Claims(id: UserId, name: Option<string>)

  /** A token this server signed: payload, signing secret, and `iat` / `exp` in seconds. */
  datatype Token = Token(claims: Claims, secret: string, iat: nat, exp: nat)

  /** The two signing secrets from the environment; "" stands for an unset variable. */
  datatype Secrets = Secrets(jwtSecret: string, jwtRefresh: string)

  const AccessLifetime: nat := 600
  const RefreshLifetime: nat := 86400

  /** `jwt.sign(payload, secret, { expiresIn })`: without a secret the library throws. */
  function Sign(claims: Claims, secret: string, now: nat, lifetime: nat): (r: Option<Token>)
    ensures r.Some? <==> secret != ""
    ensures r.Some? ==> r.value.claims == claims && r.value.secret == secret
    ensures r.Some? ==> r.value.iat == now && r.value.exp == now + lifetime
  {
    if secret == "" then None else Some(Token(claims, secret, now, now + lifetime))
  }

  /** `signAccessToken`: claims `{ id, name }`, `JWT_SECRET`, "10m". */
  function SignAccessToken(userId: UserId, name: string, env: Secrets, now: nat): (r: Option<Token>)
    ensures env.jwtSecret != "" ==> r.Some?
    ensures r.Some? ==> r.value.claims == Claims(userId, Some(name)) && r.value.secret == env.jwtSecret
    ensures r.Some? ==> r.value.exp - r.value.iat == 600
  {
    Sign(Claims(userId, Some(name)), env.jwtSecret, now, AccessLifetime)
  }

  /** `signRefreshToken`: the same claims, `JWT_REFRESH`, "1d". */
  function SignRefreshToken(userId: UserId, name: string, env: Secrets, now: nat): (r: Option<Token>)
    ensures env.jwtRefresh != "" ==> r.Some?
    ensures r.Some? ==> r.value.claims == Claims(userId, Some(name)) && r.value.secret == env.jwtRefresh
    ensures r.Some? ==> r.value.exp - r.value.iat == 86400
  {
    Sign(Claims(userId, Some(name)), env.jwtRefresh, now, RefreshLifetime)
  }

  /** An `x-token` header value: a token this server signed, or any other text. */
  datatype RawToken = Signed(token: Token) | Malformed(text: string)

  /** The outcome of `jwt.verify`: the payload, `TokenExpiredError`, or any other error. */
  datatype Verdict = Valid(claims: Claims) | Expired | Invalid

  /**
   * `jwt.verify(raw, secret)`: the signature is checked before the expiry, and a token is
   * expired once the clock reaches `exp`.
   */
  function Verify(raw: RawToken, secret: string, now: nat): Verdict {
    match raw
    case Malformed(_) => Invalid
    case Signed(t) =>
      if secret == "" || t.secret != secret then Invalid
      else if now >= t.exp then Expired
      else Valid(t.claims)
  }

  /** Verifying a freshly signed token with its own secret: valid before `exp`, expired from then on. */
  lemma SignThenVerify(claims: Claims, secret: string, signedAt: nat, lifetime: nat, now: nat)
    requires secret != ""
    ensures Verify(Signed(Sign(claims, secret, signedAt, lifetime).value), secret, now)
            == if now < signedAt + lifetime then Valid(claims) else Expired
  {
  }

  /** An access token verifies with `JWT_SECRET` for exactly its first ten minutes. */
  lemma AccessTokenLifetime(userId: UserId, name: string, env: Secrets, signedAt: nat, now: nat)
    requires env.jwtSecret != ""
    ensures var t := SignAccessToken(userId, name, env, signedAt).value;
            Verify(Signed(t), env.jwtSecret, now).Valid? <==> now < signedAt + 600
  {
  }

  /** A refresh token never passes as an access token when the two secrets differ. */
  lemma RefreshTokenIsNotAccessToken(userId: UserId, name: string, env: Secrets, signedAt: nat, now: nat)
    requires env.jwtRefresh != "" && env.jwtRefresh != env.jwtSecret
    ensures Verify(Signed(SignRefreshToken(userId, name, env, signedAt).value), env.jwtSecret, now) == Invalid
  {
  }
}

=== FILE: user_model.dfy ===
/**
 * The user collection: its enums, the record with its schema defaults, the public projection
 * without the password, and what saving a new document checks (required fields, the unique
 * email index, the unique `_id`).
 */
module UserModel {
  import opened Wrappers
  import opened Collections

  type UserId = string

  /** `userRole`. */
  datatype Role = Admin | Member

  function RoleName(r: Role): string {
    match r
    case Admin => "admin"
    case Member => "user"
  }

  /** The schema's enum validator for `role`: only the two role names are accepted. */
  function ParseRole(s: string): (r: Option<Role>)
    ensures r.Some? ==> RoleName(r.value) == s
    ensures r.None? <==> forall role: Role :: RoleName(role) != s
  {
    if s == "admin" then Some(Admin)
    else if s == "user" then Some(Member)
    else None
  }

  /** `userGender`. */
  datatype Gender = Male | Female

  function GenderName(g: Gender): string {
    match g
    case Male => "male"
    case Female => "female"
  }

  /** The schema's enum validator for `gender`. */
  function ParseGender(s: string): (r: Option<Gender>)
    ensures r.Some? ==> GenderName(r.value) == s
    ensures r.None? <==> forall g: Gender :: GenderName(g) != s
  {
    if s == "male" then Some(Male)
    else if s == "female" then Some(Female)
    else None
  }

  /** `userStatus`: the locked state is spelled "locked" (its enum key is `inactive`). */
  datatype Status = Active | Locked

  function StatusName(s: Status): string {
    match s
    case Active => "active"
    case Locked => "locked"
  }

  /** The schema's enum validator for `status`: exactly two strings are statuses. */
  function ParseStatus(s: string): (r: Option<Status>)
    ensures r.Some? ==> StatusName(r.value) == s
    ensures r.None? <==> forall st: Status :: StatusName(st) != s
    ensures r == Some(Locked) <==> s == "locked"
  {
    if s == "active" then Some(Active)
    else if s == "locked" then Some(Locked)
    else None
  }

  const DefaultAvatar: string := "https://www.pngkey.com/png/full/115-1150420_avatar-png-pic-male-avatar-icon-png.png"

  /** A stored user document; `password` holds the bcrypt hash. */
  datatype User = User(
    id: UserId,
    displayName: string,
    email: string,
    password: string,
    phoneNumber: Option<string>,
    avatar: string,
    gender: Option<Gender>,
    role: Role,
    status: Status)

  /** `IUserInfo`: the user record without its password. */
  datatype UserInfo = UserInfo(
    id: UserId,
    displayName: string,
    email: string,
    phoneNumber: Option<string>,
    avatar: string,
    gender: Option<Gender>,
    role: Role,
    status: Status)

  function Public(u: User): UserInfo {
    UserInfo(u.id, u.displayName, u.email, u.phoneNumber, u.avatar, u.gender, u.role, u.status)
  }

  /** Two users have the same public projection exactly when they differ at most in their password. */
  lemma PublicForgetsOnlyPassword(u: User, v: User)
    ensures Public(u) == Public(v) <==> u.(password := v.password) == v
  {
    if Public(u) == Public(v) {
      assert u.(password := v.password) == v;
    }
  }

  /** A document built from the three registration fields: every other field takes its schema default. */
  function NewUser(id: UserId, displayName: string, email: string, passwordHash: string): (u: User)
    ensures u.id == id && u.displayName == displayName && u.email == email && u.password == passwordHash
    ensures u.role == Member && RoleName(u.role) == "user"
    ensures u.status == Active && StatusName(u.status) == "active"
    ensures u.avatar == DefaultAvatar
    ensures u.phoneNumber.None? && u.gender.None?
  {
    User(id, displayName, email, passwordHash, None, DefaultAvatar, None, Member, Active)
  }

  /** Required string fields: Mongoose's `required` validator rejects a missing or empty string. */
  predicate HasRequiredFields(u: User) {
    u.displayName != "" && u.email != "" && u.password != ""
  }

  predicate EmailTaken(users: seq<User>, email: string) {
    exists u :: u in users && u.email == email
  }

  predicate IdTaken(users: seq<User>, id: UserId) {
    exists u :: u in users && u.id == id
  }

  function IdOf(u: User): UserId { u.id }
  function EmailOf(u: User): string { u.email }

  /** The invariant the collection keeps: required fields present, `_id` and `email` unique. */
  ghost predicate UsersWellFormed(users: seq<User>) {
    && (forall u :: u in users ==> HasRequiredFields(u))
    && UniqueBy(users, IdOf)
    && UniqueBy(users, EmailOf)
  }

  /** `Users.findOne({ email })`. */
  function FindByEmail(users: seq<User>, email: string): (r: Option<User>)
    ensures r.Some? <==> EmailTaken(users, email)
    ensures r.Some? ==> r.value in users && r.value.email == email
  {
    if |users| == 0 then None
    else if users[0].email == email then Some(users[0])
    else
      var r := FindByEmail(users[1..], email);
      assert forall u :: u in users[1..] ==> u in users;
      assert forall u :: u in users ==> u == users[0] || u in users[1..];
      r
  }

  /** `Users.findById(id)`. */
  function FindById(users: seq<User>, id: UserId): (r: Option<User>)
    ensures r.Some? <==> IdTaken(users, id)
    ensures r.Some? ==> r.value in users && r.value.id == id
  {
    if |users| == 0 then None
    else if users[0].id == id then Some(users[0])
    else
      var r := FindById(users[1..], id);
      assert forall u :: u in users[1..] ==> u in users;
      assert forall u :: u in users ==> u == users[0] || u in users[1..];
      r
  }

  /** In a well-formed collection the user found by email is the only one with that email. */
  lemma FindByEmailUnique(users: seq<User>, u: User)
    requires UsersWellFormed(users)
    requires u in users
    ensures FindByEmail(users, u.email) == Some(u)
  {
    var i :| 0 <= i < |users| && users[i] == u;
    var r := FindByEmail(users, u.email);
    var j :| 0 <= j < |users| && users[j] == r.value;
    assert i == j;
  }

  /**
   * `new Users(doc).save()`: the validators and unique indexes either reject the document or
   * it is appended to the collection.
   */
  function SaveUser(users: seq<User>, u: User): (r: Option<seq<User>>)
    ensures r.Some? <==> HasRequiredFields(u) && !IdTaken(users, u.id) && !EmailTaken(users, u.email)
    ensures r.Some? ==> r.value == users + [u]
    ensures r.Some? && UsersWellFormed(users) ==> UsersWellFormed(r.value)
  {
    if HasRequiredFields(u) && !IdTaken(users, u.id) && !EmailTaken(users, u.email) then
      var r := users + [u];
      assert forall i :: 0 <= i < |users| ==> users[i] in users;
      assert forall v :: v in r ==> v in users || v == u;
      Some(r)
    else None
  }

  /** The users whose `_id` is not in `ids`, in their stored order: `deleteMany({ _id: { $in: ids } })`. */
  function Without(users: seq<User>, ids: set<UserId>): (r: seq<User>)
    ensures forall u :: u in r <==> u in users && u.id !in ids
    ensures |r| <= |users|
  {
    Filter(users, (u: User) => u.id !in ids)
  }

  /** Removing users keeps the collection well formed. */
  lemma WithoutWellFormed(users: seq<User>, ids: set<UserId>)
    requires UsersWellFormed(users)
    ensures UsersWellFormed(Without(users, ids))
  {
    FilterUnique(users, (u: User) => u.id !in ids, IdOf);
    FilterUnique(users, (u: User) => u.id !in ids, EmailOf);
  }

  /** The collection with the status of the user(s) with `_id` equal to `id` set to `s`. */
  function WithStatus(users: seq<User>, id: UserId, s: Status): (r: seq<User>)
    ensures |r| == |users|
    ensures forall i :: 0 <= i < |users| ==> r[i] == if users[i].id == id then users[i].(status := s) else users[i]
  {
    seq(|users|, i requires 0 <= i < |users| => if users[i].id == id then users[i].(status := s) else users[i])
  }

  /** Lookups by `_id` find the same user, up to its status, after a status change. */
  lemma {:induction false} FindByIdIgnoresStatus(users: seq<User>, key: UserId, id: UserId, s: Status)
    ensures var a := FindById(WithStatus(users, id, s), key);
            var b := FindById(users, key);
            a.Some? == b.Some? && (a.Some? ==> a.value == b.value.(status := a.value.status))
    decreases |users|
  {
    if |users| > 0 {
      assert WithStatus(users, id, s)[1..] == WithStatus(users[1..], id, s);
      FindByIdIgnoresStatus(users[1..], key, id, s);
    }
  }

  /** Lookups by email find the same user, up to its status, after a status change. */
  lemma {:induction false} FindByEmailIgnoresStatus(users: seq<User>, email: string, id: UserId, s: Status)
    ensures var a := FindByEmail(WithStatus(users, id, s), email);
            var b := FindByEmail(users, email);
            a.Some? == b.Some? && (a.Some? ==> a.value == b.value.(status := a.value.status))
    decreases |users|
  {
    if |users| > 0 {
      assert WithStatus(users, id, s)[1..] == WithStatus(users[1..], id, s);
      FindByEmailIgnoresStatus(users[1..], email, id, s);
    }
  }
}

=== FILE: users_controller.dfy ===
/**
 * The user handlers: `updateUserInfo` (ownership check, then optional fields validated in a
 * fixed order, then a `$set` of the given fields), the `getAllUsers` query builder (sort and
 * filter strings read as key/value pairs, page arithmetic), and the two deletes with their
 * effects on the user and post collections.
 */
module UsersController {
  import opened Wrappers
  import opened Collections
  import opened JsText
  import opened Http
  import opened External
  import opened Validation
  import opened UserModel
  import opened PostModel

  // ---------------------------------------------------------------- updateUserInfo

  /** The body fields `updateUserInfo` reads; each one is optional. */
  datatype UpdateBody = UpdateBody(
    email: Option<string>,
    password: Option<string>,
    displayName: Option<string>,
    phoneNumber: Option<string>)

  /** The field checks, each run only when its field is truthy. */
  datatype UpdateCheck = EmailFormat | PasswordLength | DisplayNameLength | DisplayNameChars | PhoneFormat

  predicate UpdateFails(svc: Services, body: UpdateBody, c: UpdateCheck) {
    var name := body.displayName.GetOr("");
    match c
    case EmailFormat => Truthy(body.email) && !svc.isValidEmail(body.email.value)
    case PasswordLength => Truthy(body.password) && Utf16Length(body.password.value) < 6
    case DisplayNameLength => Truthy(body.displayName) && (Utf16Length(name) <= 3 || Utf16Length(name) >= 15)
    case DisplayNameChars => Truthy(body.displayName) && (' ' in name || !AlnumOnly(name))
    case PhoneFormat => Truthy(body.phoneNumber) && !PhoneShape(body.phoneNumber.value)
  }

  const UpdateOrder: seq<UpdateCheck> := [EmailFormat, PasswordLength, DisplayNameLength, DisplayNameChars, PhoneFormat]

  function UpdateFailsOn(svc: Services, body: UpdateBody): UpdateCheck -> bool {
    c => UpdateFails(svc, body, c)
  }

  /** The checks of `updateUserInfo`, written as the handler runs them. */
  function UpdateValidation(svc: Services, body: UpdateBody): (r: Option<UpdateCheck>)
    ensures r == FirstFailure(UpdateOrder, UpdateFailsOn(svc, body))
  {
    UpdateFollowsOrder(svc, body);
    var name := body.displayName.GetOr("");
    if Truthy(body.email) && !svc.isValidEmail(body.email.value) then Some(EmailFormat)
    else if Truthy(body.password) && Utf16Length(body.password.value) < 6 then Some(PasswordLength)
    else if Truthy(body.displayName) && (Utf16Length(name) <= 3 || Utf16Length(name) >= 15) then Some(DisplayNameLength)
    else if Truthy(body.displayName) && (' ' in name || !AlnumOnly(name)) then Some(DisplayNameChars)
    else if Truthy(body.phoneNumber) && !PhoneShape(body.phoneNumber.value) then Some(PhoneFormat)
    else None
  }

  lemma UpdateFollowsOrder(svc: Services, body: UpdateBody)
    ensures FirstFailure(UpdateOrder, UpdateFailsOn(svc, body)) ==
      if UpdateFails(svc, body, EmailFormat) then Some(EmailFormat)
      else if UpdateFails(svc, body, PasswordLength) then Some(PasswordLength)
      else if UpdateFails(svc, body, DisplayNameLength) then Some(DisplayNameLength)
      else if UpdateFails(svc, body, DisplayNameChars) then Some(DisplayNameChars)
      else if UpdateFails(svc, body, PhoneFormat) then Some(PhoneFormat)
      else None
  {
    var o := UpdateOrder;
    assert o[1..][1..][1..][1..][1..] == [];
  }

  /** The password `$set` writes: the hash of a truthy password, otherwise the body's value as it is. */
  function PasswordToStore(svc: Services, body: UpdateBody): Option<string> {
    if Truthy(body.password) then Some(svc.hash(body.password.value)) else body.password
  }

  /**
   * The record after `$set: { email, displayName, phoneNumber, password }`. A field the body
   * leaves out keeps its value (Mongoose drops `undefined` from `$set`); a field given as ""
   * is written as "", since no validator runs on an update.
   */
  function ApplyUpdate(u: User, svc: Services, body: UpdateBody): (v: User)
    ensures v.id == u.id && v.role == u.role && v.status == u.status
    ensures v.avatar == u.avatar && v.gender == u.gender
    ensures v.email == body.email.GetOr(u.email)
    ensures v.displayName == body.displayName.GetOr(u.displayName)
    ensures v.phoneNumber == if body.phoneNumber.Some? then body.phoneNumber else u.phoneNumber
    ensures Truthy(body.password) ==> v.password == svc.hash(body.password.value)
    ensures body.password.None? ==> v.password == u.password
  {
    u.(email := body.email.GetOr(u.email),
       displayName := body.displayName.GetOr(u.displayName),
       phoneNumber := if body.phoneNumber.Some? then body.phoneNumber else u.phoneNumber,
       password := PasswordToStore(svc, body).GetOr(u.password))
  }

  /** Whether another user already holds `email`: the unique index then rejects the update. */
  predicate EmailClash(users: seq<User>, id: UserId, email: string) {
    exists u :: u in users && u.id != id && u.email == email
  }

  /** The collection with the user(s) whose `_id` is `id` replaced by `v`. */
  function ReplaceUser(users: seq<User>, id: UserId, v: User): (r: seq<User>)
    ensures |r| == |users|
    ensures forall i :: 0 <= i < |users| ==> r[i] == if users[i].id == id then v else users[i]
  {
    seq(|users|, i requires 0 <= i < |users| => if users[i].id == id then v else users[i])
  }

  /** `updateUserInfo`'s outcomes with their HTTP statuses. */
  datatype UpdateReply =
    | UpdateForbidden                 // 403
    | UpdateInvalid(check: UpdateCheck) // 400
    | UpdateNotFound                  // 400 "User not found"
    | UpdateFailed                    // 500
    | Updated(user: UserInfo)         // 200, the record without its password

  function UpdateStatus(r: UpdateReply): nat {
    match r
    case UpdateForbidden => 403
    case UpdateInvalid(_) => 400
    case UpdateNotFound => 400
    case UpdateFailed => 500
    case Updated(_) => 200
  }

  /**
   * `updateUserInfo`. `caller` is `req.user?.id`, `userId` the path parameter and `storeFails`
   * a store failure inside `findByIdAndUpdate`.
   */
  function UpdateUserInfo(users: seq<User>, caller: Option<UserId>, userId: UserId, body: UpdateBody,
                          svc: Services, storeFails: bool): (out: Step<UpdateReply, seq<User>>)
    ensures out.reply == UpdateForbidden <==> caller != Some(userId)
    ensures out.reply.UpdateInvalid? <==> caller == Some(userId) && FirstFailure(UpdateOrder, UpdateFailsOn(svc, body)).Some?
    ensures out.reply.UpdateInvalid? ==> out.reply.check == FirstFailure(UpdateOrder, UpdateFailsOn(svc, body)).value
    ensures out.reply == UpdateNotFound <==>
              caller == Some(userId) && FirstFailure(UpdateOrder, UpdateFailsOn(svc, body)).None?
              && !storeFails && !IdTaken(users, userId)
    ensures out.reply == UpdateFailed <==>
              caller == Some(userId) && FirstFailure(UpdateOrder, UpdateFailsOn(svc, body)).None?
              && (storeFails || (IdTaken(users, userId)
                                 && EmailClash(users, userId, ApplyUpdate(FindById(users, userId).value, svc, body).email)))
    ensures out.reply.Updated? <==>
              caller == Some(userId) && FirstFailure(UpdateOrder, UpdateFailsOn(svc, body)).None?
              && !storeFails && IdTaken(users, userId)
              && !EmailClash(users, userId, ApplyUpdate(FindById(users, userId).value, svc, body).email)
    ensures !out.reply.Updated? ==> out.store == users
    ensures out.reply.Updated? ==>
              && FindById(users, userId).Some?
              && var v := ApplyUpdate(FindById(users, userId).value, svc, body);
              && out.reply.user == Public(v)
              && !EmailClash(users, userId, v.email)
              && |out.store| == |users|
              && forall i :: 0 <= i < |users| ==> out.store[i] == if users[i].id == userId then v else users[i]
  {
    if caller != Some(userId) then Step(UpdateForbidden, users)
    else
      var failed := UpdateValidation(svc, body);
      if failed.Some? then Step(UpdateInvalid(failed.value), users)
      else if storeFails then Step(UpdateFailed, users)
      else
        var found := FindById(users, userId);
        if found.None? then Step(UpdateNotFound, users)
        else
          var v := ApplyUpdate(found.value, svc, body);
          if EmailClash(users, userId, v.email) then Step(UpdateFailed, users)
          else Step(Updated(Public(v)), ReplaceUser(users, userId, v))
  }

  /** An update never breaks the unique indexes on `_id` and `email`. */
  lemma UpdateKeepsIndexes(users: seq<User>, caller: Option<UserId>, userId: UserId, body: UpdateBody,
                           svc: Services, storeFails: bool)
    requires UniqueBy(users, IdOf) && UniqueBy(users, EmailOf)
    ensures var out := UpdateUserInfo(users, caller, userId, body, svc, storeFails);
            UniqueBy(out.store, IdOf) && UniqueBy(out.store, EmailOf)
  {
    var out := UpdateUserInfo(users, caller, userId, body, svc, storeFails);
    if out.reply.Updated? {
      var v := ApplyUpdate(FindById(users, userId).value, svc, body);
      forall i, j | 0 <= i < j < |out.store| ensures out.store[i].id != out.store[j].id && out.store[i].email != out.store[j].email {
        assert users[i] in users && users[j] in users;
        assert users[i].id != users[j].id && users[i].email != users[j].email;
      }
    }
  }

  /**
   * The required validators do not run on an update: a well-formed store that receives an empty
   * display name ends up with a user whose display name is "".
   */
  lemma UpdateCanClearDisplayName(svc: Services)
    ensures var u := NewUser("u1", "alice", "a@b.co", "h");
            var out := UpdateUserInfo([u], Some("u1"), "u1", UpdateBody(None, None, Some(""), None), svc, false);
            UsersWellFormed([u]) && out.reply.Updated? && !HasRequiredFields(out.store[0])
  {
    var u := NewUser("u1", "alice", "a@b.co", "h");
    var body := UpdateBody(None, None, Some(""), None);
    UpdateFollowsOrder(svc, body);
    assert FindById([u], "u1") == Some(u);
    assert !EmailClash([u], "u1", u.email);
  }

  /** A supplied password is stored as its hash, and the reply (a `UserInfo`) has no password field. */
  lemma UpdateStoresHash(users: seq<User>, userId: UserId, body: UpdateBody, svc: Services)
    requires HashSound(svc) && Truthy(body.password)
    requires UpdateUserInfo(users, Some(userId), userId, body, svc, false).reply.Updated?
    ensures var out := UpdateUserInfo(users, Some(userId), userId, body, svc, false);
            forall i :: 0 <= i < |out.store| && out.store[i].id == userId ==>
              out.store[i].password == svc.hash(body.password.value)
              && svc.matches(body.password.value, out.store[i].password)
  {
  }

  /** The display-name rule of an update: a truthy name passes exactly when it has 4 to 14 ASCII letters or digits. */
  lemma UpdateDisplayNameRule(svc: Services, body: UpdateBody)
    requires Truthy(body.displayName)
    ensures !UpdateFails(svc, body, DisplayNameLength) && !UpdateFails(svc, body, DisplayNameChars)
            <==> 4 <= |body.displayName.value| <= 14 && AlnumOnly(body.displayName.value)
  {
    var name := body.displayName.value;
    if AlnumOnly(name) {
      assert forall i :: 0 <= i < |name| ==> name[i] as int < 0x1_0000;
    }
    if !UpdateFails(svc, body, DisplayNameChars) {
      assert forall i :: 0 <= i < |name| ==> name[i] as int < 0x1_0000;
    }
  }

  // ---------------------------------------------------------------- getAllUsers

  /** `ISortDirection`. */
  datatype SortDirection = Asc | Desc

  function SortValue(d: SortDirection): int {
    match d
    case Asc => 1
    case Desc => -1
  }

  /** A direction token: exactly "asc" is ascending; anything else, a missing token included, is descending. */
  function DirectionOf(token: Option<string>): (d: SortDirection)
    ensures d == Asc <==> token == Some("asc")
  {
    if token == Some("asc") then Asc else Desc
  }

  /** A filter entry: an equality on a string (or on `undefined`), or a regular expression with its options. */
  datatype Condition = Equals(value: Option<string>) | Regex(pattern: string, options: string)

  function EqualsOf(token: Option<string>): Condition {
    Equals(token)
  }

  /** Position `i` of a split string is a key position: the pairs are (parts[0], parts[1]), (parts[2], parts[3]), … */
  predicate KeyAt(parts: seq<string>, i: int) {
    0 <= i < |parts| && i % 2 == 0
  }

  /** The token after key position `i`; `parts[i + 1]` is `undefined` past the end. */
  function ValueAfter(parts: seq<string>, i: int): Option<string> {
    if 0 <= i + 1 < |parts| then Some(parts[i + 1]) else None
  }

  /** Key position `i` is the last one with its key, so its value is the one the loop leaves in the object. */
  predicate LastKeyAt(parts: seq<string>, i: int) {
    KeyAt(parts, i) && forall j :: i < j < |parts| && KeyAt(parts, j) ==> parts[j] != parts[i]
  }

  /**
   * A JavaScript object with string keys: its entries in property order, which for such keys
   * is the order in which each key was first assigned.
   */
  type Entries<V> = seq<(string, V)>

  predicate HasKey<V>(obj: Entries<V>, k: string) {
    exists j :: 0 <= j < |obj| && obj[j].0 == k
  }

  predicate DistinctKeys<V>(obj: Entries<V>) {
    forall i, j :: 0 <= i < j < |obj| ==> obj[i].0 != obj[j].0
  }

  /** `obj[k] = v`: an existing key keeps its place and takes the new value; a new key goes last. */
  function Put<V>(obj: Entries<V>, k: string, v: V): (r: Entries<V>)
    ensures |r| == if HasKey(obj, k) then |obj| else |obj| + 1
    ensures forall j :: 0 <= j < |obj| ==> r[j] == if obj[j].0 == k then (k, v) else obj[j]
    ensures !HasKey(obj, k) ==> r[|obj|] == (k, v)
  {
    if HasKey(obj, k) then seq(|obj|, j requires 0 <= j < |obj| => if obj[j].0 == k then (k, v) else obj[j])
    else obj + [(k, v)]
  }

  /** After `obj[k] = v`, `k` holds `v`, the other keys are the same, and keys stay distinct. */
  lemma PutKeyFacts<V>(obj: Entries<V>, k: string, v: V)
    ensures var r := Put(obj, k, v);
            && HasKey(r, k) && (forall j :: 0 <= j < |r| && r[j].0 == k ==> r[j].1 == v)
            && (forall k' :: k' != k ==> (HasKey(r, k') <==> HasKey(obj, k')))
            && (DistinctKeys(obj) ==> DistinctKeys(r))
  {
    var r := Put(obj, k, v);
    if HasKey(obj, k) {
      var j :| 0 <= j < |obj| && obj[j].0 == k;
      assert r[j].0 == k;
    } else {
      assert r[|obj|].0 == k;
    }
    forall k' | k' != k ensures HasKey(r, k') <==> HasKey(obj, k') {
      if HasKey(obj, k') {
        var j :| 0 <= j < |obj| && obj[j].0 == k';
        assert r[j].0 == k';
      }
      if HasKey(r, k') {
        var j :| 0 <= j < |r| && r[j].0 == k';
        assert j < |obj| && obj[j].0 == k';
      }
    }
  }

  /** The object as a map from key to value, for uses that do not depend on the key order. */
  function AsMap<V>(obj: Entries<V>): (m: map<string, V>)
    requires DistinctKeys(obj)
    ensures forall k :: k in m <==> HasKey(obj, k)
    ensures forall j :: 0 <= j < |obj| ==> obj[j].0 in m && m[obj[j].0] == obj[j].1
  {
    var m := map j | 0 <= j < |obj| :: obj[j].0 := obj[j].1;
    assert forall j :: 0 <= j < |obj| ==> obj[j].0 in m;
    m
  }

  /** The first key position of `parts`, from `from` on, that holds `k`; `|parts|` when there is none. */
  function FirstKeyFrom(parts: seq<string>, k: string, from: nat): nat
    decreases |parts| - from
  {
    if from >= |parts| then |parts|
    else if parts[from] == k then from
    else FirstKeyFrom(parts, k, from + 2)
  }

  lemma {:induction false} FirstKeyIs(parts: seq<string>, k: string, from: nat, i: int)
    requires from % 2 == 0 && from <= i && KeyAt(parts, i) && parts[i] == k
    requires forall l :: from <= l < i && KeyAt(parts, l) ==> parts[l] != k
    ensures FirstKeyFrom(parts, k, from) == i
    decreases |parts| - from
  {
    if from < i {
      assert KeyAt(parts, from);
      FirstKeyIs(parts, k, from + 2, i);
    }
  }

  /** Key position `a` is the last one with its key before position `n`. */
  predicate LastKeyBelow(parts: seq<string>, a: int, n: int) {
    KeyAt(parts, a) && a < n && forall l :: a < l < n && KeyAt(parts, l) ==> parts[l] != parts[a]
  }

  /** The keys of `obj` are the tokens at the key positions before `n`. */
  ghost predicate KeysRead<V>(obj: Entries<V>, parts: seq<string>, n: int) {
    forall k :: HasKey(obj, k) <==> exists a :: KeyAt(parts, a) && a < n && parts[a] == k
  }

  /** Each key holds the value after its last occurrence before `n`. */
  ghost predicate ValuesRead<V>(obj: Entries<V>, parts: seq<string>, f: Option<string> -> V, n: int) {
    forall a :: LastKeyBelow(parts, a, n) ==> exists j :: 0 <= j < |obj| && obj[j] == (parts[a], f(ValueAfter(parts, a)))
  }

  /** The keys of `obj` come in the order of their first occurrence in `parts`. */
  ghost predicate FirstOccurrenceOrder<V>(obj: Entries<V>, parts: seq<string>) {
    forall x, y :: 0 <= x < y < |obj| ==> FirstKeyFrom(parts, obj[x].0, 0) < FirstKeyFrom(parts, obj[y].0, 0)
  }

  /**
   * `obj` is what the pair loop builds from `parts`: one entry per distinct token at a key
   * position, holding the value after the key's last occurrence, with the keys in the order of
   * their first occurrence.
   */
  ghost predicate ReadInOrder<V>(obj: Entries<V>, parts: seq<string>, f: Option<string> -> V) {
    && DistinctKeys(obj)
    && (forall k :: HasKey(obj, k) <==> exists i :: KeyAt(parts, i) && parts[i] == k)
    && (forall i :: LastKeyAt(parts, i) ==> exists j :: 0 <= j < |obj| && obj[j] == (parts[i], f(ValueAfter(parts, i))))
    && FirstOccurrenceOrder(obj, parts)
  }

  /** `m` holds what the pair loop builds, with the key order forgotten. */
  ghost predicate ReadAs<V>(m: map<string, V>, parts: seq<string>, f: Option<string> -> V) {
    && (forall k :: k in m <==> exists i :: KeyAt(parts, i) && parts[i] == k)
    && (forall i :: LastKeyAt(parts, i) ==> parts[i] in m && m[parts[i]] == f(ValueAfter(parts, i)))
  }

  lemma ReadInOrderAsMap<V>(obj: Entries<V>, parts: seq<string>, f: Option<string> -> V)
    requires ReadInOrder(obj, parts, f)
    ensures ReadAs(AsMap(obj), parts, f)
  {
  }

  /**
   * The key order is the query's: two distinct keys read from `a x b y` give exactly the
   * entries for `a` and then `b`, so swapping the pairs in the query string swaps the sort
   * precedence.
   */
  lemma TwoKeysInOrder<V>(obj: Entries<V>, a: string, x: string, b: string, y: string, f: Option<string> -> V)
    requires a != b && ReadInOrder(obj, [a, x, b, y], f)
    ensures obj == [(a, f(Some(x))), (b, f(Some(y)))]
  {
    var parts := [a, x, b, y];
    FourParts(a, x, b, y);
    assert forall j :: 0 <= j < |obj| ==> obj[j].0 == a || obj[j].0 == b by {
      forall j | 0 <= j < |obj| ensures obj[j].0 == a || obj[j].0 == b {
        assert HasKey(obj, obj[j].0);
      }
    }
    assert HasKey(obj, a) && HasKey(obj, b) by { assert KeyAt(parts, 0) && KeyAt(parts, 2); }
    var ja :| 0 <= ja < |obj| && obj[ja].0 == a;
    var jb :| 0 <= jb < |obj| && obj[jb].0 == b;
    assert |obj| >= 2;
    assert FirstKeyFrom(parts, obj[0].0, 0) < FirstKeyFrom(parts, obj[1].0, 0);
    assert obj[0].0 == a && obj[1].0 == b;
    assert forall j :: 0 <= j < |obj| ==> (obj[j].0 == a && j == 0) || (obj[j].0 == b && j == 1);
    assert obj[|obj| - 1].0 == a || obj[|obj| - 1].0 == b;
    assert |obj| == 2;
    var j0 :| 0 <= j0 < |obj| && obj[j0] == (parts[0], f(ValueAfter(parts, 0)));
    var j2 :| 0 <= j2 < |obj| && obj[j2] == (parts[2], f(ValueAfter(parts, 2)));
  }

  /** The positions of a four-token query with distinct keys. */
  lemma FourParts(a: string, x: string, b: string, y: string)
    requires a != b
    ensures var parts := [a, x, b, y];
            && (forall i :: KeyAt(parts, i) <==> i == 0 || i == 2)
            && FirstKeyFrom(parts, a, 0) == 0 && FirstKeyFrom(parts, b, 0) == 2
            && LastKeyAt(parts, 0) && LastKeyAt(parts, 2)
            && ValueAfter(parts, 0) == Some(x) && ValueAfter(parts, 2) == Some(y)
  {
    var parts := [a, x, b, y];
    assert FirstKeyFrom(parts, b, 0) == FirstKeyFrom(parts, b, 2);
  }

  /** The loop invariant of the pair loop after the key positions before `n`. */
  ghost predicate ReadUpTo<V>(obj: Entries<V>, parts: seq<string>, f: Option<string> -> V, n: int) {
    && DistinctKeys(obj)
    && KeysRead(obj, parts, n)
    && ValuesRead(obj, parts, f, n)
    && FirstOccurrenceOrder(obj, parts)
    && (forall x :: 0 <= x < |obj| ==> FirstKeyFrom(parts, obj[x].0, 0) < n)
  }

  /**
   * The loop `for (i = 0; i < parts.length; i += 2) obj[parts[i]] = f(parts[i + 1])`: the keys
   * are the tokens at even positions in the order they first appear, and a later duplicate key
   * overwrites the value of an earlier one in place.
   */
  method ReadPairs<V>(parts: seq<string>, f: Option<string> -> V) returns (obj: Entries<V>)
    ensures ReadInOrder(obj, parts, f)
  {
    obj := [];
    var i := 0;
    ReadStart(parts, f);
    while i < |parts|
      invariant 0 <= i && i % 2 == 0
      invariant i >= |parts| ==> i <= |parts| + 1
      invariant ReadUpTo(obj, parts, f, i)
      decreases |parts| - i
    {
      PutStep(obj, parts, f, i);
      obj := Put(obj, parts[i], f(ValueAfter(parts, i)));
      i := NextKey(i);
    }
    ReadDone(obj, parts, f, i);
  }

  /** The key position after `i`. */
  function NextKey(i: int): (j: int)
    requires i % 2 == 0
    ensures j > i && j % 2 == 0 && j == i + 2
  {
    i + 2
  }

  lemma ReadStart<V>(parts: seq<string>, f: Option<string> -> V)
    ensures ReadUpTo([], parts, f, 0)
  {
  }

  lemma ReadDone<V>(obj: Entries<V>, parts: seq<string>, f: Option<string> -> V, n: int)
    requires n >= |parts| && ReadUpTo(obj, parts, f, n)
    ensures ReadInOrder(obj, parts, f)
  {
    forall i | LastKeyAt(parts, i) ensures exists j :: 0 <= j < |obj| && obj[j] == (parts[i], f(ValueAfter(parts, i))) {
      assert LastKeyBelow(parts, i, n);
    }
  }

  /** One turn of the pair loop keeps its invariant. */
  lemma PutStep<V>(obj: Entries<V>, parts: seq<string>, f: Option<string> -> V, i: int)
    requires KeyAt(parts, i) && ReadUpTo(obj, parts, f, i)
    ensures ReadUpTo(Put(obj, parts[i], f(ValueAfter(parts, i))), parts, f, i + 2)
  {
    PutKeyFacts(obj, parts[i], f(ValueAfter(parts, i)));
    PutKeys(obj, parts, i, f(ValueAfter(parts, i)));
    PutValues(obj, parts, f, i);
    PutOrder(obj, parts, i, f(ValueAfter(parts, i)));
  }

  lemma PutKeys<V>(obj: Entries<V>, parts: seq<string>, i: int, v: V)
    requires KeyAt(parts, i) && KeysRead(obj, parts, i)
    ensures KeysRead(Put(obj, parts[i], v), parts, i + 2)
  {
    var r := Put(obj, parts[i], v);
    PutKeyFacts(obj, parts[i], v);
    forall k ensures HasKey(r, k) <==> exists a :: KeyAt(parts, a) && a < i + 2 && parts[a] == k {
      if k != parts[i] {
        if exists a :: KeyAt(parts, a) && a < i + 2 && parts[a] == k {
          var a :| KeyAt(parts, a) && a < i + 2 && parts[a] == k;
          assert a < i;
        }
      }
    }
  }

  lemma PutValues<V>(obj: Entries<V>, parts: seq<string>, f: Option<string> -> V, i: int)
    requires KeyAt(parts, i) && ValuesRead(obj, parts, f, i)
    ensures ValuesRead(Put(obj, parts[i], f(ValueAfter(parts, i))), parts, f, i + 2)
  {
    var k := parts[i];
    var r := Put(obj, k, f(ValueAfter(parts, i)));
    PutKeyFacts(obj, k, f(ValueAfter(parts, i)));
    forall a | LastKeyBelow(parts, a, i + 2)
      ensures exists j :: 0 <= j < |r| && r[j] == (parts[a], f(ValueAfter(parts, a)))
    {
      if a == i {
        var j :| 0 <= j < |r| && r[j].0 == k;
        assert r[j] == (parts[a], f(ValueAfter(parts, a)));
      } else {
        assert a < i && parts[a] != k;
        assert LastKeyBelow(parts, a, i);
        var j :| 0 <= j < |obj| && obj[j] == (parts[a], f(ValueAfter(parts, a)));
        assert r[j] == obj[j];
      }
    }
  }

  lemma PutOrder<V>(obj: Entries<V>, parts: seq<string>, i: int, v: V)
    requires KeyAt(parts, i) && KeysRead(obj, parts, i) && FirstOccurrenceOrder(obj, parts)
    requires forall x :: 0 <= x < |obj| ==> FirstKeyFrom(parts, obj[x].0, 0) < i
    ensures var r := Put(obj, parts[i], v);
            FirstOccurrenceOrder(r, parts) && forall x :: 0 <= x < |r| ==> FirstKeyFrom(parts, r[x].0, 0) < i + 2
  {
    var k := parts[i];
    if !HasKey(obj, k) {
      FirstKeyIs(parts, k, 0, i);
      var r := Put(obj, k, v);
      assert r[|obj|].0 == k;
    }
  }

  /** `parseInt(x) || d`: a result of 0 or `NaN` falls back to the default. */
  datatype Parsed = NaN | Num(n: int)

  function OrDefault(p: Parsed, d: int): (r: int)
    ensures p == NaN || p == Num(0) ==> r == d
    ensures p.Num? && p.n != 0 ==> r == p.n
  {
    if p.Num? && p.n != 0 then p.n else d
  }

  /** `filterObject["displayName"] = { $regex: searchText, $options: "i" }` when `searchText` is truthy. */
  function WithSearch(pairs: map<string, Condition>, searchText: Option<string>): map<string, Condition> {
    if Truthy(searchText) then pairs["displayName" := Regex(searchText.value, "i")] else pairs
  }

  /**
   * The filter `getAllUsers` builds: the pairs of `parts` read as equalities, except that a
   * truthy search text replaces any `displayName` entry by a case-insensitive regular expression.
   */
  ghost predicate FilterReadAs(filter: map<string, Condition>, parts: seq<string>, searchText: Option<string>) {
    var search := Truthy(searchText);
    && (forall k :: k in filter <==> (exists i :: KeyAt(parts, i) && parts[i] == k) || (search && k == "displayName"))
    && (forall i :: LastKeyAt(parts, i) && !(search && parts[i] == "displayName") ==>
          parts[i] in filter && filter[parts[i]] == Equals(ValueAfter(parts, i)))
    && (search ==> "displayName" in filter && filter["displayName"] == Regex(searchText.value, "i"))
  }

  lemma SearchOverridesName(pairs: map<string, Condition>, parts: seq<string>, searchText: Option<string>)
    requires ReadAs(pairs, parts, EqualsOf)
    ensures FilterReadAs(WithSearch(pairs, searchText), parts, searchText)
  {
  }

  /** What `getAllUsers` reads: `body.page`, `body.limit` (after `parseInt`), the two query strings and `body.searchText`. */
  datatype ListRequest = ListRequest(
    page: Parsed,
    limit: Parsed,
    sortInfo: Option<string>,
    filterInfo: Option<string>,
    searchText: Option<string>)

  /** The query handed to `Users.find(filter).skip(skip).limit(limit).sort(sort)`, with `-password` selected away. */
  datatype UserQuery = UserQuery(filter: map<string, Condition>, sort: Entries<SortDirection>, skip: int, limit: int)

  const PairSeparator: string := "%20"

  /**
   * The query `getAllUsers` builds, or `None` for the 500 reply when a query string is missing
   * (calling `.split` on `undefined` throws).
   */
  method GetAllUsers(req: ListRequest) returns (r: Option<UserQuery>)
    ensures r.None? <==> req.sortInfo.None? || req.filterInfo.None?
    ensures r.Some? ==>
              var page := OrDefault(req.page, 1);
              var limit := OrDefault(req.limit, 9);
              r.value.skip == (page - 1) * limit && r.value.limit == limit
    ensures r.Some? ==> ReadInOrder(r.value.sort, Split(req.sortInfo.value, PairSeparator), DirectionOf)
    ensures r.Some? ==> FilterReadAs(r.value.filter, Split(req.filterInfo.value, PairSeparator), req.searchText)
  {
    if req.sortInfo.None? || req.filterInfo.None? {
      return None;
    }
    var page := OrDefault(req.page, 1);
    var limit := OrDefault(req.limit, 9);
    var sortParts := Split(req.sortInfo.value, PairSeparator);
    var filterParts := Split(req.filterInfo.value, PairSeparator);
    var sort := ReadPairs(sortParts, DirectionOf);
    var pairs := ReadPairs(filterParts, EqualsOf);
    ReadInOrderAsMap(pairs, filterParts, EqualsOf);
    SearchOverridesName(AsMap(pairs), filterParts, req.searchText);
    var filter := WithSearch(AsMap(pairs), req.searchText);
    return Some(UserQuery(filter, sort, (page - 1) * limit, limit));
  }

  // ---------------------------------------------------------------- deletes

  /** The two collections the deletes touch. */
  datatype Db = Db(users: seq<User>, posts: seq<Post>)

  /** The reply of both deletes: 200 with the remaining users without passwords, or 500. */
  datatype DeleteReply = Remaining(users: seq<UserInfo>) | DeleteFailed

  function PublicAll(users: seq<User>): (r: seq<UserInfo>)
    ensures |r| == |users|
    ensures forall i :: 0 <= i < |users| ==> r[i] == Public(users[i])
  {
    seq(|users|, i requires 0 <= i < |users| => Public(users[i]))
  }

  function AuthoredBy(userId: UserId): Post -> bool {
    (p: Post) => p.author == userId
  }

  /**
   * `deleteSingleUser`: store call 0 deletes the user, call 1 deletes every post the user
   * authored, call 2 lists the remaining users. A call that throws leaves the effects of the
   * earlier calls in place and answers 500.
   */
  function DeleteSingleUser(db: Db, userId: UserId, outage: Outage): (out: Step<DeleteReply, Db>)
    ensures out.reply.Remaining? <==> outage.Healthy? || outage.call > 2
    ensures forall u :: u in out.store.users <==> u in db.users && (u.id != userId || !Completes(outage, 0))
    ensures forall p :: p in out.store.posts <==> p in db.posts && (p.author != userId || !Completes(outage, 1))
    ensures out.reply.Remaining? ==> out.reply.users == PublicAll(out.store.users)
  {
    if !Completes(outage, 0) then Step(DeleteFailed, db)
    else
      var users := Without(db.users, {userId});
      if !Completes(outage, 1) then Step(DeleteFailed, db.(users := users))
      else
        var posts := RemovePosts(db.posts, AuthoredBy(userId));
        if !Completes(outage, 2) then Step(DeleteFailed, Db(users, posts))
        else Step(Remaining(PublicAll(users)), Db(users, posts))
  }

  /** After a successful single delete neither the user nor any post of theirs remains, and the stores stay well formed. */
  lemma DeleteSingleUserCascade(db: Db, userId: UserId)
    requires UsersWellFormed(db.users) && PostsWellFormed(db.posts)
    ensures var out := DeleteSingleUser(db, userId, Healthy);
            && !IdTaken(out.store.users, userId)
            && (forall p :: p in out.store.posts ==> p.author != userId)
            && UsersWellFormed(out.store.users) && PostsWellFormed(out.store.posts)
  {
    WithoutWellFormed(db.users, {userId});
    RemovePostsWellFormed(db.posts, AuthoredBy(userId));
  }

  /**
   * `deleteMultipleUsers`: call 0 deletes every listed user, call 1 lists the remaining users.
   * Posts are never touched, so a deleted user's posts stay behind.
   */
  function DeleteMultipleUsers(db: Db, userIds: seq<UserId>, outage: Outage): (out: Step<DeleteReply, Db>)
    ensures out.reply.Remaining? <==> outage.Healthy? || outage.call > 1
    ensures forall u :: u in out.store.users <==> u in db.users && (u.id !in userIds || !Completes(outage, 0))
    ensures out.store.posts == db.posts
    ensures out.reply.Remaining? ==> out.reply.users == PublicAll(out.store.users)
  {
    if !Completes(outage, 0) then Step(DeleteFailed, db)
    else
      var users := Without(db.users, set id | id in userIds);
      if !Completes(outage, 1) then Step(DeleteFailed, db.(users := users))
      else Step(Remaining(PublicAll(users)), db.(users := users))
  }

  /** Deleting users one way or the other leaves the same users; only the single delete removes their posts. */
  lemma SingleAndMultipleDeleteAgreeOnUsers(db: Db, userId: UserId)
    ensures var a := DeleteSingleUser(db, userId, Healthy);
            var b := DeleteMultipleUsers(db, [userId], Healthy);
            a.store.users == b.store.users && a.reply == b.reply
            && b.store.posts == db.posts
  {
    assert (set id | id in [userId]) == {userId};
  }
}

=== FILE: validation.dfy ===
/** The shape every handler's field validation has: checks run in a fixed order and the first failure wins. */
module Validation {
  import opened Wrappers

  /** The first check in `order` that fails, if any. */
  function FirstFailure<C>(order: seq<C>, fails: C -> bool): Option<C>
    decreases |order|
  {
    if |order| == 0 then None
    else if fails(order[0]) then Some(order[0])
    else FirstFailure(order[1..], fails)
  }

  /**
   * An ordered validator reports nothing exactly when every check passes, and otherwise
   * reports a failing check all of whose predecessors pass.
   */
  lemma {:induction false} FirstFailureSpec<C>(order: seq<C>, fails: C -> bool)
    ensures var r := FirstFailure(order, fails);
            && (r.None? <==> forall i :: 0 <= i < |order| ==> !fails(order[i]))
            && (r.Some? ==> exists i :: 0 <= i < |order| && order[i] == r.value && fails(order[i])
                                        && forall j :: 0 <= j < i ==> !fails(order[j]))
    decreases |order|
  {
    if |order| > 0 && !fails(order[0]) {
      var r := FirstFailure(order[1..], fails);
      FirstFailureSpec(order[1..], fails);
      assert forall i :: 1 <= i < |order| ==> order[i] == order[1..][i - 1];
      if r.Some? {
        var i :| 0 <= i < |order[1..]| && order[1..][i] == r.value && fails(order[1..][i])
                 && forall j :: 0 <= j < i ==> !fails(order[1..][j]);
        assert order[i + 1] == r.value;
        assert forall j :: 1 <= j < i + 1 ==> !fails(order[j]);
      }
    }
  }
}

=== FILE: wrappers.dfy ===
/** Optional values and the (reply, new store) pair every request handler produces. */
module Wrappers {

  /** A value that may be absent: an omitted request field, a failed lookup. */
  datatype Option<+T> = None | Some(value: T) {

    /** The value, or `default` when absent. */
    function GetOr(default: T): T {
      match this
      case Some(v) => v
      case None => default
    }
  }

  /** What one request handler produces: the response it sends and the store it leaves behind. */
  datatype Step<+R, +S> = Step(reply: R, store: S)
}
